=== FILE: README.md ===
# Inference validator scheduling, in Dafny

This project models the pure scheduling and bookkeeping of the Accountant's
inference validator (`src/subnet/validator/inference_validator.py`). On each
epoch the Accountant does the following:

1. It turns the peers' shard claims `{peer_id, span_start, span_end}` into
   groups of single-block probe tasks (span assignment).
2. It takes `max_block`, the largest task end of the last group (one past
   the last block that group probes), cuts `[0, max_block)` into chunks it can
   host itself, and runs each chunk block by block. It keeps its own
   per-position sessions in a baseline cache, deduplicated by server slot.
3. For every probe task it plans a run. The run replays the cached sessions of
   every other block and puts the peer on its own block.
4. It compares the peer's reported outputs with the cached baseline, position
   by position. A peer passes when at least 80% of the compared positions
   agree.

Modules, one per component:

| file | module | what |
|---|---|---|
| `records.dfy` | `Records` | claims, tasks, spans, sessions, `Option`, `Result` and the raised errors |
| `seqs.dfy` | `Seqs` | list comprehensions (`Filter`) and `next(...)` lookups (`First`) |
| `span_assignment.dfy` | `SpanAssignment` | `get_peers_validation_spans` |
| `block_range.dfy` | `BlockRange` | max block, chunk partition, per-chunk Accountant task lists |
| `baseline_cache.dfy` | `BaselineCache` | cache push and the three lookups |
| `cross_validation.dfy` | `CrossValidation` | plan walk, tolerance rule, verdict, one validation step |
| `peer_filters.dfy` | `PeerFilters` | `update_peers` and the two range filters |
| `readiness.dfy` | `Readiness` | the hosted-blocks test polled before a baseline run |

Behaviour worth knowing, as the code has it:
- Overlapping claims share a block inside one group (lines 451-463).
- The cache push looks entries up by `server_idx` alone (line 540), although
  its comment at line 542 speaks of appending "span data". A later position
  served by a slot already cached is therefore never stored.
- `torch.allclose(expected, outputs)` at line 607 scales its relative term by
  the second argument, the peer's value, not by the baseline.
- The stride-2 index-offset loop of lines 272-284 yields one single-block
  task for every block of the chunk, consecutively.
- For claims `[0,40]`, `[40,80]`, `[80,120]` over a model of at least 81
  blocks, the maximum block is 81, the end of the last probe task (line 480).
  An Accountant hosting 40 blocks then gets the chunks `[0,40)`, `[40,80)` and
  `[80,81)` and no others; one hosting 81 blocks or more gets the single chunk
  `[0,81)` (lines 246-261). Either way blocks 81 to 119 get no baseline.

## Model

| member | source | states |
|---|---|---|
| SpanAssignment.HitBeforeIsCoverage | src/subnet/validator/inference_validator.py:450-451 | a claim is reached by the scan of blocks below b exactly when some block below b lies in its inclusive range |
| SpanAssignment.RemoveFirst | src/subnet/validator/inference_validator.py:464 | `list.remove` drops the first element equal to the one removed and keeps the others in order, so exactly one copy goes |
| SpanAssignment.RemovingCoveringIsMissing | src/subnet/validator/inference_validator.py:451-464 | removing, one by one, every pending claim that covers a block leaves exactly the claims that do not cover it, in order, duplicates included |
| SpanAssignment.PendingStep | src/subnet/validator/inference_validator.py:450-466 | after block b, the claims still pending are those pending before it minus those covering b |
| SpanAssignment.FoundIsFirstScanned | src/subnet/validator/inference_validator.py:451 | the pending claims that cover block b are exactly the claims whose first reachable block is b |
| SpanAssignment.ScanStep | src/subnet/validator/inference_validator.py:450-466 | scanning one block keeps the pass invariant: pending claims, tasks in scan order, sorted, single-block |
| SpanAssignment.AppendingBlockKeepsOrder | src/subnet/validator/inference_validator.py:456-463 | tasks appended for block b after tasks on lower blocks keep the group sorted by start |
| SpanAssignment.ScanPass | src/subnet/validator/inference_validator.py:448-470 | one pass emits one single-block task per reachable claim at its first reachable block, in nondecreasing block order; the unreachable claims stay pending, and none stay exactly when all are reachable |
| SpanAssignment.PendingIsUnscannable | src/subnet/validator/inference_validator.py:447-470 | nothing is left pending after a pass exactly when every claim has a block in [0, n) |
| SpanAssignment.ScanOrderIsReached | src/subnet/validator/inference_validator.py:455-464 | a pass yields exactly one task for every reachable claim, counted with multiplicity |
| SpanAssignment.SecondPassIsStuck | src/subnet/validator/inference_validator.py:447-470 | a second pass over the leftover claims emits nothing and leaves them all pending |
| SpanAssignment.AnotherPassAddsNothing | src/subnet/validator/inference_validator.py:447-470 | every pass after the first appends an empty group and changes nothing else |
| SpanAssignment.PeersValidationSpans | src/subnet/validator/inference_validator.py:439-471 | no claims give no groups; all claims reachable give exactly one group and an emptied pending list; otherwise the loop only appends empty groups and never empties the list |
| SpanAssignment.OverlappingClaimsShareABlock | src/subnet/validator/inference_validator.py:451-463 | claims [0,2] and [0,3] both yield a task on block 0 of the same group |
| SpanAssignment.UnscannableClaims | src/subnet/validator/inference_validator.py:450-451 | a claim starting at the block count, or with reversed ends, is never reached |
| BlockRange.MaxEnd | src/subnet/validator/inference_validator.py:480 | the maximum task end of a non-empty group is some task's end and bounds every end |
| BlockRange.MinMaxBlocks | src/subnet/validator/inference_validator.py:473-482 | the result is [0, E] with E the largest end of the last group only, [0, num_model_blocks] with no groups, and an error exactly when some group is empty |
| BlockRange.AccountantChunks | src/subnet/validator/inference_validator.py:244-261 | chunk size 0 raises; otherwise the chunks start at 0, are consecutive and non-empty, all have the chunk size except a possibly shorter last one, and the last ends at max_block |
| BlockRange.ChunkStartAt | src/subnet/validator/inference_validator.py:251-261 | chunk i of a chunking starts at block i times the chunk size |
| BlockRange.ChunkingIsUnique | src/subnet/validator/inference_validator.py:244-261 | a positive chunk size and a maximum block admit one chunking only, so the chunks the loop builds are determined by its inputs |
| BlockRange.ChunkStartsIncrease | src/subnet/validator/inference_validator.py:251-261 | a later chunk starts at or after the end of an earlier one |
| BlockRange.ChunkingCoversEachBlockOnce | src/subnet/validator/inference_validator.py:251-261 | every block of [0, max_block) lies in exactly one chunk |
| BlockRange.AccountantSpanRanges | src/subnet/validator/inference_validator.py:271-294 | the stride-2 index-offset loop yields exactly one task of the Accountant per block of [start, end), in order, so the range read back is [start, end); an empty chunk raises |
| BlockRange.BaselineProbesEveryBlockOnce | src/subnet/validator/inference_validator.py:265-286 | over a chunking of [0, max_block), the Accountant's task lists together probe every block exactly once, in increasing order |
| BlockRange.ConsecutiveScanOrder | src/subnet/validator/inference_validator.py:447-466 | claims [0,x], [x,y], [y,z] are reached in one pass, in listing order, once the model has more than y blocks |
| BlockRange.ConsecutiveTasks | src/subnet/validator/inference_validator.py:447-480 | those claims are probed on blocks 0, x and y, so the group's largest end is y + 1 |
| BlockRange.ThreePeerScenario | src/subnet/validator/inference_validator.py:244-261 | claims [0,40], [40,80], [80,120] over a model of at least 81 blocks are all reached and probed on blocks 0, 40 and 80, the max block is 81, and a 40-block Accountant gets exactly the chunks [0,40), [40,80), [80,81) |
| BaselineCache.PushInferenceSequenceCache | src/subnet/validator/inference_validator.py:531-544 | a missing cache becomes the pushed list verbatim; otherwise the old cache is a prefix, the new entries are the pushed ones whose server slot was absent, earlier entries of the same push included, and the slots are the union |
| BaselineCache.FreshSlots | src/subnet/validator/inference_validator.py:538-544 | the appended entries bring exactly the pushed slots the cache lacked |
| BaselineCache.PushIsIdempotent | src/subnet/validator/inference_validator.py:531-544 | pushing the same list a second time changes nothing |
| BaselineCache.FreshKeepsFirstOnNewSlots | src/subnet/validator/inference_validator.py:538-544 | a push onto an existing cache appends, for every slot the cache lacked, the first pushed entry on that slot and no other, in pushed order, because the lookup at line 540 runs against the cache as it grows |
| BaselineCache.FreshIsNew | src/subnet/validator/inference_validator.py:538-544 | every entry a push appends is on a slot no earlier entry of the cache has |
| BaselineCache.FreshIsUnique | src/subnet/validator/inference_validator.py:538-544 | a push appends at most one entry per slot, each from the pushed list and with a slot the cache lacked |
| BaselineCache.PushKeepsSlotsUnique | src/subnet/validator/inference_validator.py:531-544 | a cache without duplicate slots keeps that property through a push |
| BaselineCache.SameSlotLaterPositionIsDropped | src/subnet/validator/inference_validator.py:538-544 | a later position served by a slot already cached is not stored |
| BaselineCache.AccountInputTensors | src/subnet/validator/inference_validator.py:546-555 | nothing exactly when no cached session is on [start, end); otherwise the subsequence of the cache made of exactly its sessions on [start, end), in cache order and with their multiplicity |
| BaselineCache.AccountantInferenceResults | src/subnet/validator/inference_validator.py:647-653 | the subsequence of the sessions run by the Accountant, in order; no other session is kept |
| BaselineCache.AccountantResultsCount | src/subnet/validator/inference_validator.py:647-653 | each own session is kept as often as it occurs; others never |
| BaselineCache.InferenceByPosition | src/subnet/validator/inference_validator.py:655-660 | nothing exactly when no session matches peer, span and position; otherwise the first match |
| BaselineCache.RecordAccountantRun | src/subnet/validator/inference_validator.py:484-505 | a failed run leaves the cache as it was; a successful one makes a missing cache exactly the run's own sessions, keeps an existing cache as a prefix and appends, for every server slot it lacked, the run's first own session on that slot and nothing else, in run order, each on a slot no earlier entry has, so an existing cache without duplicate slots keeps none; the slots added are exactly the own sessions' slots, and a cache of own sessions stays one |
| BaselineCache.Baseline | src/subnet/validator/inference_validator.py:291-328 | after the runs over all chunks the cache is missing exactly when it was missing and every run failed; an existing cache stays a prefix and everything appended past it is on a slot no earlier entry has; from the missing cache every epoch starts with (line 212), the first successful run's own sessions are stored verbatim and everything past them is on a new slot; its slots are the old ones plus every successful run's own slots; it holds only the Accountant's sessions |
| BaselineCache.SharedSlotAcrossRunsKeepsFirst | src/subnet/validator/inference_validator.py:538-544 | two chunk runs whose own sessions share a server slot leave, from the missing cache, only the first run's session |
| BaselineCache.BaselineKeepsEveryRun | src/subnet/validator/inference_validator.py:291-328 | each successful chunk run's own server slots are in the final cache |
| CrossValidation.PlanWalk | src/subnet/validator/inference_validator.py:337-360 | the task is included exactly when 0 <= start <= max_block, and the cached segments are those of every block in [0, max_block] outside the task's [start, end) that has any, in block order |
| CrossValidation.SegmentsSkipTask | src/subnet/validator/inference_validator.py:346-349 | the jump from the task's start to its end skips no cached segment the reference would collect |
| CrossValidation.SegmentsAreCached | src/subnet/validator/inference_validator.py:344-360 | each collected segment is the non-empty cached segment of one block outside the task, on strictly increasing blocks |
| CrossValidation.SegmentsComplete | src/subnet/validator/inference_validator.py:344-360 | every block up to max_block outside the task that has cached sessions contributes its segment |
| CrossValidation.JoinSegments | src/subnet/validator/inference_validator.py:362-365 | the list handed to the runtime is the collected segments concatenated in block order |
| CrossValidation.AllClose | src/subnet/validator/inference_validator.py:607 | the element rule of `torch.allclose` with RTOL and ATOL: every baseline value lies within ATOL plus RTOL times the peer value's magnitude |
| CrossValidation.AllCloseBoundary | src/subnet/validator/inference_validator.py:40-41 | with ATOL 0.8 and RTOL 0.001 a baseline of 10.0 accepts 10.79 and rejects 10.82 |
| CrossValidation.AllCloseIsNotSymmetric | src/subnet/validator/inference_validator.py:607 | the tolerance is relative to the peer's value, so swapping the sides can change the outcome |
| CrossValidation.Verdict | src/subnet/validator/inference_validator.py:626-637 | the rate test against VTOL 0.8 holds exactly when something was compared and 5 * passed >= 4 * compared |
| CrossValidation.ComparedIsFilterThenCompare | src/subnet/validator/inference_validator.py:576-623 | the comparisons are exactly the peer's sessions that have a cached baseline, in order, each compared once; other peers' sessions and uncached positions count for nothing |
| CrossValidation.ValidateInferenceResults | src/subnet/validator/inference_validator.py:557-645 | exactly one record is appended, for the task's peer and span, with the comparisons above and the verdict |
| CrossValidation.ThreeOfFourIsInvalid | src/subnet/validator/inference_validator.py:632-637 | 3 passes out of 4 is invalid |
| CrossValidation.FourOfFourIsValid | src/subnet/validator/inference_validator.py:632-637 | 4 passes out of 4 is valid |
| CrossValidation.NothingComparedIsInvalid | src/subnet/validator/inference_validator.py:635-637 | nothing compared is invalid |
| CrossValidation.ValidateTask | src/subnet/validator/inference_validator.py:340-374 | the run receives the walk's task list and joined segments; a failed run raises, otherwise exactly one record is appended, for the task's peer and span, with that run's comparisons and a verdict that holds exactly when something was compared and at least 80% passed |
| PeerFilters.UpdatePeers | src/subnet/validator/inference_validator.py:702-714 | the peers to validate are the subsequence of the listing made of the other peers' claims, in listing order; none of the validator's own; a missing listing gives none |
| PeerFilters.UpdatePeersCount | src/subnet/validator/inference_validator.py:708-711 | each listed claim of another peer is kept as often as it is listed |
| PeerFilters.PeersInRange | src/subnet/validator/inference_validator.py:719-725 | the subsequence of the other peers' claims with exactly the given bounds, in order and with their multiplicity |
| PeerFilters.PeersWithinRange | src/subnet/validator/inference_validator.py:727-741 | the subsequence of the other peers' claims lying inside the given bounds, in order and with their multiplicity |
| PeerFilters.InRangeRefinesWithinRange | src/subnet/validator/inference_validator.py:719-741 | the exact-range peers are the within-range peers with exactly the given bounds, in the same order |
| Readiness.ReadyAsWritten | src/subnet/validator/inference_validator.py:310 | as written, the test passes exactly when either the hosted start or the hosted end matches the chunk |
| Readiness.HalfMatchPassesAsWritten | src/subnet/validator/inference_validator.py:310 | as written, hosting [0,40) passes the test for chunk [0,81) |
| Readiness.Ready | src/subnet/validator/inference_validator.py:307-312 | the intended test passes exactly when the hosted range equals the chunk |
| Readiness.ReadyRefinesAsWritten | src/subnet/validator/inference_validator.py:310 | the intended test implies the written one, and they differ exactly when one end matches and the other does not |

## Left out

- Network and chain I/O are not part of this model. This covers the directory
  call `get_peers_data_list` (it becomes the `listing` parameter) and
  everything in `src/subnet/substrate/chain_functions.py` and
  `src/petals/cli/hypertensor/subnet_node/activate.py`.
- Threading, lifecycle and sleeps are not modelled (`run`,
  `run_in_background`, `shutdown`, the polling loops). The `run_validator`
  driver is not modelled either. Its per-task step is `ValidateTask`, and the
  `break` at line 375 that validates only the first task of each group is not
  modelled.
- The model, the tokenizer and `generate_tensors` become parameters. The
  Accountant's runs are `Option` values in `Baseline`; the validation run is
  the `run` function of `ValidateTask`. `None` stands for an exception caught
  inside `run_inference_as_accountant` or `run_inference_with_tensors`.
- Tensor numerics are abstracted: the per-position comparison is the `agree`
  parameter. `AllClose` states the element rule over reals. It has no NaN and
  no broadcasting: a length mismatch fails the comparison, where torch would
  broadcast or raise. The tensor sums of lines 602-604 are stored in each
  `PeerInferenceSequenceData` (lines 615-620) and reach the `add_data`
  record; they are tensor numerics and are dropped from `Comparison`.
- `AccountantData`, `PeerValidationData` and the other config classes are not
  part of this model. `add_data` is an append to a log of `PeerRecord`s.
- The stubs and unfinished members at lines 410-424, 662-700 and 743-802 are
  not modelled.
- SpanAssignment.PeersValidationSpans: the source loops forever when a claim
  has no block in [0, num_model_blocks). The model runs at most `passes`
  iterations and proves that each pass after the first appends an empty group
  and changes nothing else.
- BlockRange.AccountantChunks: `max_block` and `num_blocks` are taken as
  naturals. Task ends are always at least 1, and a negative block count is
  not meaningful.
- CrossValidation.PlanWalk: a task the walk reaches must end after it starts.
  With `end <= start` the jump at line 348 does not move the walk forward and
  the source loops forever. Every task span assignment produces is one block
  wide, so this holds at every call.
- CrossValidation.ValidateTask: the same requirement applies. The cache is a
  list because `len(None)` at line 331 raises before any walk when every
  Accountant run failed.
- CrossValidation.Verdict: the rate at line 635 is a Python float division;
  the model divides reals. The equivalence with `5 * passed >= 4 * compared`
  relies on the float quotient landing on the same side of 0.8, which holds
  for any realistic count.
- `get_account_input_tensors` is modelled on a populated cache only, for the
  same reason.
- The readiness polling loop (lines 301-328) is modelled only through its
  test. The `_is_module_container_healthy` checks and the sleeps are left
  out.

## Findings

| source | as written | input that shows it | evidently intended | confidence | as-written member | corrected member |
|---|---|---|---|---|---|---|
| src/subnet/validator/inference_validator.py:310 | the Accountant keeps waiting only while both the hosted start and the hosted end differ from the chunk, so it proceeds as soon as either matches | the runtime still hosts [0,40) and the chunk is [0,81): the starts match, so the baseline run starts on the wrong blocks | wait until the hosted range equals the chunk (`or` instead of `and`), as the log message "Blocks don't match yet" says | high, not executed | Readiness.ReadyAsWritten, Readiness.HalfMatchPassesAsWritten | Readiness.Ready, Readiness.ReadyRefinesAsWritten |

=== FILE: baseline_cache.dfy ===
/** The Accountant's baseline cache (`cached_inference_sequence`): the sessions
    the Accountant recorded for its own blocks, deduplicated by server slot, and
    the lookups the cross-validation reads it with. */
module BaselineCache {
  import opened Records
  import opened Seqs

  /** The server slots present in a list of sessions. */
  function Slots(xs: seq<Session>): set<int> {
    set s | s in xs :: s.serverIdx
  }

  /** No two sessions of `xs` share a server slot. */
  predicate UniqueSlots(xs: seq<Session>) {
    forall i, j :: 0 <= i < j < |xs| ==> xs[i].serverIdx != xs[j].serverIdx
  }

  lemma SlotsAppend(xs: seq<Session>, ys: seq<Session>)
    ensures Slots(xs + ys) == Slots(xs) + Slots(ys)
  {
    forall k | k in Slots(xs + ys) ensures k in Slots(xs) + Slots(ys) {
      var s :| s in xs + ys && s.serverIdx == k;
    }
    forall k | k in Slots(xs) + Slots(ys) ensures k in Slots(xs + ys) {
      if k in Slots(xs) {
        var s :| s in xs && s.serverIdx == k;
        assert s in xs + ys;
      } else {
        var s :| s in ys && s.serverIdx == k;
        assert s in xs + ys;
      }
    }
  }

  // ---------------------------------------------------------------------------
  // Push
  // ---------------------------------------------------------------------------

  /** Reference: the entries of `incoming`, in order, whose server slot appears
      neither in `cache` nor earlier in `incoming`. */
  function Fresh(cache: seq<Session>, incoming: seq<Session>): seq<Session>
    decreases |incoming|
  {
    if incoming == [] then []
    else
      var init, x := incoming[..|incoming| - 1], incoming[|incoming| - 1];
      Fresh(cache, init)
        + (if x.serverIdx in Slots(cache) || x.serverIdx in Slots(init) then [] else [x])
  }

  /** The cache after a push: a missing cache becomes the pushed list
      verbatim; an existing one gains the fresh entries at its end. */
  function Pushed(cache: Option<seq<Session>>, incoming: seq<Session>): seq<Session> {
    match cache
    case None => incoming
    case Some(c) => c + Fresh(c, incoming)
  }

  lemma {:induction false} FreshSlots(cache: seq<Session>, incoming: seq<Session>)
    ensures Slots(cache + Fresh(cache, incoming)) == Slots(cache) + Slots(incoming)
    decreases |incoming|
  {
    if incoming == [] {
      assert cache + [] == cache;
    } else {
      var init, x := incoming[..|incoming| - 1], incoming[|incoming| - 1];
      FreshSlots(cache, init);
      SlotsAppend(init, [x]);
      assert incoming == init + [x];
      var f := Fresh(cache, init);
      if x.serverIdx in Slots(cache) || x.serverIdx in Slots(init) {
        assert Fresh(cache, incoming) == f + [];
        assert f + [] == f;
      } else {
        assert Fresh(cache, incoming) == f + [x];
        assert cache + (f + [x]) == (cache + f) + [x];
        SlotsAppend(cache + f, [x]);
      }
      assert Slots([x]) == {x.serverIdx};
    }
  }

  /** `push_inference_sequence_cache` (lines 531-544), returning the cache
      afterwards. Each incoming entry is looked up by server slot with
      `next(...)` against the cache as it stands, entries appended earlier in
      the same call included, and appended only when its slot is absent. */
  method PushInferenceSequenceCache(cache: Option<seq<Session>>, incoming: seq<Session>)
    returns (r: seq<Session>)
    ensures r == Pushed(cache, incoming)
    ensures cache.None? ==> r == incoming
    ensures cache.Some? ==> cache.value <= r
    ensures cache.Some? ==> Slots(r) == Slots(cache.value) + Slots(incoming)
  {
    if cache.None? {
      return incoming;
    }
    var c := cache.value;
    r := c;
    for i := 0 to |incoming|
      invariant r == c + Fresh(c, incoming[..i])
    {
      var x := incoming[i];
      var found := First(r, (s: Session) => s.serverIdx == x.serverIdx);
      assert incoming[..i + 1][..i] == incoming[..i];
      FreshSlots(c, incoming[..i]);
      if found.None? {
        assert x.serverIdx !in Slots(r);
        r := r + [x];
      } else {
        assert x.serverIdx in Slots(r);
      }
    }
    assert incoming[..|incoming|] == incoming;
    FreshSlots(c, incoming);
  }

  lemma {:induction false} FreshOfCovered(cache: seq<Session>, incoming: seq<Session>)
    requires Slots(incoming) <= Slots(cache)
    ensures Fresh(cache, incoming) == []
    decreases |incoming|
  {
    if incoming != [] {
      var init := incoming[..|incoming| - 1];
      assert incoming == init + [incoming[|incoming| - 1]];
      SlotsAppend(init, [incoming[|incoming| - 1]]);
      FreshOfCovered(cache, init);
    }
  }

  /** Pushing the same sequence a second time changes nothing. */
  lemma PushIsIdempotent(cache: Option<seq<Session>>, incoming: seq<Session>)
    ensures Pushed(Some(Pushed(cache, incoming)), incoming) == Pushed(cache, incoming)
  {
    var r := Pushed(cache, incoming);
    if cache.Some? {
      FreshSlots(cache.value, incoming);
    }
    FreshOfCovered(r, incoming);
  }

  lemma {:induction false} FreshIsUnique(cache: seq<Session>, incoming: seq<Session>)
    ensures UniqueSlots(Fresh(cache, incoming))
    ensures Slots(Fresh(cache, incoming)) <= Slots(incoming)
    ensures forall i :: 0 <= i < |Fresh(cache, incoming)| ==>
              Fresh(cache, incoming)[i] in incoming && Fresh(cache, incoming)[i].serverIdx !in Slots(cache)
    decreases |incoming|
  {
    if incoming != [] {
      var init, x := incoming[..|incoming| - 1], incoming[|incoming| - 1];
      FreshIsUnique(cache, init);
      assert incoming == init + [x];
      SlotsAppend(init, [x]);
      var f := Fresh(cache, init);
      if !(x.serverIdx in Slots(cache) || x.serverIdx in Slots(init)) {
        SlotsAppend(f, [x]);
        assert x.serverIdx !in Slots(f);
        forall i | 0 <= i < |f| ensures f[i].serverIdx != x.serverIdx {
          assert f[i] in f;
        }
      } else {
        assert Fresh(cache, incoming) == f + [];
      }
    }
  }

  /** A cache without duplicate server slots keeps that property through a
      push onto it. */
  lemma PushKeepsSlotsUnique(cache: seq<Session>, incoming: seq<Session>)
    requires UniqueSlots(cache)
    ensures UniqueSlots(Pushed(Some(cache), incoming))
  {
    FreshIsUnique(cache, incoming);
    var f := Fresh(cache, incoming);
    var r := cache + f;
    forall i, j | 0 <= i < j < |r| ensures r[i].serverIdx != r[j].serverIdx {
      if j >= |cache| && i < |cache| {
        assert r[i] in cache;
        assert r[j] == f[j - |cache|];
      } else if i >= |cache| {
        assert r[i] == f[i - |cache|] && r[j] == f[j - |cache|];
      }
    }
  }

  /** Entry `j` of `incoming` is the first of the list on its server slot,
      and the cache lacks that slot: the entry a push stores for it. */
  predicate FirstOnNewSlot(cache: seq<Session>, incoming: seq<Session>, j: int) {
    && 0 <= j < |incoming|
    && incoming[j].serverIdx !in Slots(cache)
    && forall l :: 0 <= l < j ==> incoming[l].serverIdx != incoming[j].serverIdx
  }

  /** `added` lists `incoming` at the strictly increasing indices `idx`, and
      those are exactly the indices of first entries on new slots. */
  ghost predicate PicksFirstOnNewSlots(added: seq<Session>, cache: seq<Session>, incoming: seq<Session>,
                                       idx: seq<int>) {
    && |idx| == |added|
    && (forall k :: 0 <= k < |idx| ==> 0 <= idx[k] < |incoming| && added[k] == incoming[idx[k]])
    && (forall k, l :: 0 <= k < l < |idx| ==> idx[k] < idx[l])
    && (forall j :: 0 <= j < |incoming| ==> (j in idx <==> FirstOnNewSlot(cache, incoming, j)))
  }

  /** Independent reference for what a push appends: for every slot the
      cache lacks, the first incoming entry on it, in incoming order. */
  ghost predicate KeepsFirstOnNewSlots(added: seq<Session>, cache: seq<Session>, incoming: seq<Session>) {
    exists idx :: PicksFirstOnNewSlots(added, cache, incoming, idx)
  }

  /** A push appends, for each slot the cache lacks, the first incoming entry
      on it, in incoming order: the `next(...)` lookup of line 540 runs
      against the cache as it grows. */
  lemma {:induction false} FreshKeepsFirstOnNewSlots(cache: seq<Session>, incoming: seq<Session>)
    ensures KeepsFirstOnNewSlots(Fresh(cache, incoming), cache, incoming)
    decreases |incoming|
  {
    if incoming == [] {
      assert PicksFirstOnNewSlots([], cache, incoming, []);
    } else {
      var init, x := incoming[..|incoming| - 1], incoming[|incoming| - 1];
      FreshKeepsFirstOnNewSlots(cache, init);
      var idx :| PicksFirstOnNewSlots(Fresh(cache, init), cache, init, idx);
      assert incoming == init + [x];
      FirstOnNewSlotsSnoc(Fresh(cache, init), cache, init, idx, x);
    }
  }

  /** One more incoming entry: picked at the next index when it is the first
      on a new slot, skipped otherwise. */
  lemma FirstOnNewSlotsSnoc(added: seq<Session>, cache: seq<Session>, init: seq<Session>, idx: seq<int>,
                            x: Session)
    requires PicksFirstOnNewSlots(added, cache, init, idx)
    ensures
      var isNew := !(x.serverIdx in Slots(cache) || x.serverIdx in Slots(init));
      PicksFirstOnNewSlots(added + (if isNew then [x] else []), cache, init + [x],
                           idx + (if isNew then [|init|] else []))
  {
    var isNew := !(x.serverIdx in Slots(cache) || x.serverIdx in Slots(init));
    var added', xs', idx' := added + (if isNew then [x] else []), init + [x], idx + (if isNew then [|init|] else []);
    forall k | 0 <= k < |idx'| ensures 0 <= idx'[k] < |xs'| && added'[k] == xs'[idx'[k]] {
      if k < |idx| {
        assert idx'[k] == idx[k] && added'[k] == added[k] && xs'[idx[k]] == init[idx[k]];
      }
    }
    forall j | 0 <= j < |xs'| ensures j in idx' <==> FirstOnNewSlot(cache, xs', j) {
      if j < |init| {
        assert forall l :: 0 <= l <= j ==> xs'[l] == init[l];
        assert FirstOnNewSlot(cache, xs', j) <==> FirstOnNewSlot(cache, init, j);
        assert j != |init|;
      } else {
        assert xs'[j] == x;
        assert (forall l :: 0 <= l < j ==> init[l].serverIdx != x.serverIdx) <==> x.serverIdx !in Slots(init) by {
          if x.serverIdx in Slots(init) {
            var s :| s in init && s.serverIdx == x.serverIdx;
            var l :| 0 <= l < |init| && init[l] == s;
          }
          forall l | 0 <= l < j && init[l].serverIdx == x.serverIdx ensures x.serverIdx in Slots(init) {
            assert init[l] in init;
          }
        }
        assert forall l :: 0 <= l < j ==> xs'[l] == init[l];
        assert forall k :: 0 <= k < |idx| ==> idx[k] < |init|;
      }
    }
  }

  /** The cache is keyed by server slot alone: a later position served by the
      same slot is not stored, so it can never be found in the cache. */
  lemma SameSlotLaterPositionIsDropped()
    ensures
      var first := Session("me", 0, 1, 0, 7, [1.0]);
      var later := Session("me", 0, 1, 1, 7, [2.0]);
      Pushed(Some([first]), [later]) == [first]
  {
    var first := Session("me", 0, 1, 0, 7, [1.0]);
    var later := Session("me", 0, 1, 1, 7, [2.0]);
    assert first in [first];
    assert [later][..0] == [];
  }

  // ---------------------------------------------------------------------------
  // Lookups
  // ---------------------------------------------------------------------------

  /** The session occupies exactly blocks [start, end). */
  predicate OnSpan(s: Session, start: int, end: int) {
    s.spanStart == start && s.spanEnd == end
  }

  /** `get_account_input_tensors` (lines 546-555): the cached sessions on
      exactly [start, end), in cache order, or nothing when there are none. */
  function AccountInputTensors(cache: seq<Session>, start: int, end: int): (r: Option<seq<Session>>)
    ensures r.None? <==> forall i :: 0 <= i < |cache| ==> !OnSpan(cache[i], start, end)
    ensures r.Some? ==> r.value != []
    ensures r.Some? ==> forall i :: 0 <= i < |r.value| ==> r.value[i] in cache && OnSpan(r.value[i], start, end)
    ensures r.Some? ==> forall i :: 0 <= i < |cache| && OnSpan(cache[i], start, end) ==> cache[i] in r.value
    ensures r.Some? ==> IsSubsequenceWhere(r.value, cache, (s: Session) => OnSpan(s, start, end))
  {
    var onSpan := (s: Session) => OnSpan(s, start, end);
    var hits := Filter(cache, onSpan);
    FilterIsSubsequence(cache, onSpan);
    FilterIsEmpty(cache, onSpan);
    if hits == [] then None else Some(hits)
  }

  /** `get_accountant_inference_results` (lines 647-653): the sessions run by
      the Accountant itself, in order. */
  function AccountantInferenceResults(sessions: seq<Session>, me: PeerId): (r: seq<Session>)
    ensures forall i :: 0 <= i < |r| ==> r[i] in sessions && r[i].peerId == me
    ensures forall i :: 0 <= i < |sessions| && sessions[i].peerId == me ==> sessions[i] in r
    ensures IsSubsequenceWhere(r, sessions, (s: Session) => s.peerId == me)
  {
    FilterIsSubsequence(sessions, (s: Session) => s.peerId == me);
    Filter(sessions, (s: Session) => s.peerId == me)
  }

  /** Every own session is kept as often as it occurs; others are dropped. */
  lemma AccountantResultsCount(sessions: seq<Session>, me: PeerId, s: Session)
    ensures multiset(AccountantInferenceResults(sessions, me))[s]
            == if s.peerId == me then multiset(sessions)[s] else 0
  {
    FilterCount(sessions, (x: Session) => x.peerId == me, s);
  }

  /** The session is `peerId`'s result for blocks [start, end) at `position`. */
  predicate IsResultAt(s: Session, peerId: PeerId, start: int, end: int, position: int) {
    s.peerId == peerId && OnSpan(s, start, end) && s.position == position
  }

  /** `get_inference_by_position` (lines 655-660): the first session of
      `peerId` on [start, end) at `position`, if any. */
  function InferenceByPosition(peerId: PeerId, sessions: seq<Session>, start: int, end: int, position: int)
    : (r: Option<Session>)
    ensures r.None? <==> forall i :: 0 <= i < |sessions| ==> !IsResultAt(sessions[i], peerId, start, end, position)
    ensures r.Some? ==>
              exists i :: (0 <= i < |sessions| && sessions[i] == r.value
                && IsResultAt(sessions[i], peerId, start, end, position)
                && forall j :: 0 <= j < i ==> !IsResultAt(sessions[j], peerId, start, end, position))
  {
    First(sessions, (s: Session) => IsResultAt(s, peerId, start, end, position))
  }

  // ---------------------------------------------------------------------------
  // Building the baseline
  // ---------------------------------------------------------------------------

  /** Every cached session was run by `me` (a missing cache holds none). */
  predicate OwnedBy(cache: Option<seq<Session>>, me: PeerId) {
    cache.Some? ==> forall i :: 0 <= i < |cache.value| ==> cache.value[i].peerId == me
  }

  /** The server slots of a possibly missing cache. */
  function CachedSlots(cache: Option<seq<Session>>): set<int> {
    if cache.Some? then Slots(cache.value) else {}
  }

  /** The server slots of the Accountant's own sessions in a run (none when
      the run raised). */
  function RunSlots(run: Option<seq<Session>>, me: PeerId): set<int> {
    if run.Some? then Slots(AccountantInferenceResults(run.value, me)) else {}
  }

  /** The bookkeeping of `run_inference_as_accountant` (lines 502-503) after
      the hosting runtime returned `run` (nothing when it raised): keep the
      Accountant's own sessions and push them onto the cache. */
  function RecordAccountantRun(cache: Option<seq<Session>>, me: PeerId, run: Option<seq<Session>>)
    : (r: Option<seq<Session>>)
    ensures run.None? ==> r == cache
    ensures run.Some? ==> r.Some?
    ensures run.Some? && cache.None? ==> r.value == AccountantInferenceResults(run.value, me)
    ensures run.Some? && cache.Some? ==> cache.value <= r.value
    ensures r.Some? ==> Slots(r.value) == CachedSlots(cache) + RunSlots(run, me)
    ensures run.Some? && cache.Some? ==>
              var added := r.value[|cache.value|..];
              && UniqueSlots(added)
              && forall i :: 0 <= i < |added| ==>
                   added[i] in run.value && added[i].peerId == me && added[i].serverIdx !in Slots(cache.value)
    ensures run.Some? && cache.Some? ==>
              KeepsFirstOnNewSlots(r.value[|cache.value|..], cache.value, AccountantInferenceResults(run.value, me))
    ensures run.Some? && cache.Some? ==> NewSlotsFrom(r.value, |cache.value|)
    ensures run.Some? && cache.Some? && UniqueSlots(cache.value) ==> UniqueSlots(r.value)
    ensures OwnedBy(cache, me) ==> OwnedBy(r, me)
  {
    match run
    case None => cache
    case Some(sessions) =>
      var mine := AccountantInferenceResults(sessions, me);
      if cache.Some? then
        FreshIsUnique(cache.value, mine);
        FreshSlots(cache.value, mine);
        assert UniqueSlots(cache.value) ==> UniqueSlots(Pushed(cache, mine)) by {
          if UniqueSlots(cache.value) {
            PushKeepsSlotsUnique(cache.value, mine);
          }
        }
        assert Pushed(cache, mine)[|cache.value|..] == Fresh(cache.value, mine);
        FreshKeepsFirstOnNewSlots(cache.value, mine);
        FreshIsNew(cache.value, mine);
        Some(Pushed(cache, mine))
      else
        Some(Pushed(cache, mine))
  }

  /** Every entry of `xs` from index `n` on has a server slot no earlier
      entry has: everything appended after the first `n` was deduplicated. */
  predicate NewSlotsFrom(xs: seq<Session>, n: int) {
    forall i, l :: 0 <= l < i < |xs| && n <= i ==> xs[l].serverIdx != xs[i].serverIdx
  }

  /** A push onto an existing cache appends only entries on slots new to
      everything before them. */
  lemma FreshIsNew(cache: seq<Session>, incoming: seq<Session>)
    ensures NewSlotsFrom(cache + Fresh(cache, incoming), |cache|)
  {
    FreshIsUnique(cache, incoming);
    var f := Fresh(cache, incoming);
    var r := cache + f;
    forall i, l | 0 <= l < i < |r| && |cache| <= i ensures r[l].serverIdx != r[i].serverIdx {
      assert r[i] == f[i - |cache|];
      if l < |cache| {
        assert r[l] in cache;
      } else {
        assert r[l] == f[l - |cache|];
      }
    }
  }

  /** Deduplicated from `n` on stays so when the list grows by entries that
      are deduplicated from its old length on. */
  lemma NewSlotsFromExtends(a: seq<Session>, b: seq<Session>, n: int)
    requires a <= b && n <= |a|
    requires NewSlotsFrom(a, n) && NewSlotsFrom(b, |a|)
    ensures NewSlotsFrom(b, n)
  {
    forall i, l | 0 <= l < i < |b| && n <= i ensures b[l].serverIdx != b[i].serverIdx {
      if i < |a| {
        assert b[l] == a[l] && b[i] == a[i];
      }
    }
  }

  /** The cache slots gathered from `runs`, in order. */
  function AllRunSlots(runs: seq<Option<seq<Session>>>, me: PeerId): set<int> {
    if runs == [] then {} else RunSlots(runs[0], me) + AllRunSlots(runs[1..], me)
  }

  /** `r` is what the Accountant's runs `runs` over every chunk, in order,
      make of `cache`:
      - a cache of own sessions stays one;
      - it is missing only when it was missing and every run raised;
      - an existing cache is kept as a prefix, and one without duplicate
        server slots never gains one;
      - its server slots are those it had plus those of every successful
        run's own sessions;
      - everything appended past the base is deduplicated by server slot
        (`DedupedAfterBase`). */
  ghost predicate FoldedFrom(cache: Option<seq<Session>>, me: PeerId, runs: seq<Option<seq<Session>>>,
                             r: Option<seq<Session>>) {
    && (OwnedBy(cache, me) ==> OwnedBy(r, me))
    && (r.None? <==> cache.None? && forall i :: 0 <= i < |runs| ==> runs[i].None?)
    && (cache.Some? ==> r.Some? && cache.value <= r.value)
    && (r.Some? ==> Slots(r.value) == CachedSlots(cache) + AllRunSlots(runs, me))
    && (cache.Some? && UniqueSlots(cache.value) ==> UniqueSlots(r.value))
    && DedupedAfterBase(cache, me, runs, r)
  }

  /** The cache after the Accountant's run over every chunk, in order. */
  function Baseline(cache: Option<seq<Session>>, me: PeerId, runs: seq<Option<seq<Session>>>)
    : (r: Option<seq<Session>>)
    ensures FoldedFrom(cache, me, runs, r)
    decreases |runs|
  {
    if runs == [] then cache
    else
      var next := RecordAccountantRun(cache, me, runs[0]);
      var r := Baseline(next, me, runs[1..]);
      FoldStep(cache, me, runs, next, r);
      r
  }

  /** One more run in front keeps `FoldedFrom`. */
  lemma FoldStep(cache: Option<seq<Session>>, me: PeerId, runs: seq<Option<seq<Session>>>,
                 next: Option<seq<Session>>, r: Option<seq<Session>>)
    requires runs != [] && next == RecordAccountantRun(cache, me, runs[0])
    requires FoldedFrom(next, me, runs[1..], r)
    ensures FoldedFrom(cache, me, runs, r)
  {
    assert forall i :: 1 <= i < |runs| ==> runs[i] == runs[1..][i - 1];
    DedupedStep(cache, me, runs, next, r);
  }

  /** The deduplication the fold keeps: past an existing cache every entry
      is on a slot new to everything before it; from a missing cache the
      first successful run's own sessions are stored verbatim and every
      entry past them is on a new slot. */
  ghost predicate DedupedAfterBase(cache: Option<seq<Session>>, me: PeerId, runs: seq<Option<seq<Session>>>,
                                   r: Option<seq<Session>>) {
    && (cache.Some? ==> r.Some? && NewSlotsFrom(r.value, |cache.value|))
    && (cache.None? ==>
          forall j :: 0 <= j < |runs| && runs[j].Some? && (forall l :: 0 <= l < j ==> runs[l].None?) ==>
            var base := AccountantInferenceResults(runs[j].value, me);
            r.Some? && base <= r.value && NewSlotsFrom(r.value, |base|))
  }

  /** One run of the fold keeps `DedupedAfterBase`. */
  lemma DedupedStep(cache: Option<seq<Session>>, me: PeerId, runs: seq<Option<seq<Session>>>,
                    next: Option<seq<Session>>, r: Option<seq<Session>>)
    requires runs != [] && next == RecordAccountantRun(cache, me, runs[0])
    requires next.Some? ==> r.Some? && next.value <= r.value
    requires DedupedAfterBase(next, me, runs[1..], r)
    ensures DedupedAfterBase(cache, me, runs, r)
  {
    if cache.Some? {
      NewSlotsFromExtends(next.value, r.value, |cache.value|);
    } else if runs[0].None? {
      forall j | 0 <= j < |runs| && runs[j].Some? && (forall l :: 0 <= l < j ==> runs[l].None?)
        ensures var base := AccountantInferenceResults(runs[j].value, me);
                r.Some? && base <= r.value && NewSlotsFrom(r.value, |base|)
      {
        assert runs[j] == runs[1..][j - 1];
        assert forall l :: 0 <= l < j - 1 ==> runs[1..][l] == runs[l + 1];
      }
    }
  }

  /** A run of a single own session keeps that session. */
  lemma OwnSessionIsKept(me: PeerId, a: Session)
    requires a.peerId == me
    ensures AccountantInferenceResults([a], me) == [a]
  {
    assert [a][..0] == [];
  }

  /** Pushing a session on a slot the cache has appends nothing. */
  lemma CachedSlotIsNotFresh(a: Session, b: Session)
    requires a.serverIdx == b.serverIdx
    ensures Fresh([a], [b]) == []
  {
    assert [b][..0] == [];
    assert a in [a];
  }

  /** A run of one own session onto a missing cache stores it. */
  lemma OwnSessionOntoMissing(me: PeerId, a: Session)
    requires a.peerId == me
    ensures RecordAccountantRun(None, me, Some([a])) == Some([a])
  {
    OwnSessionIsKept(me, a);
  }

  /** A run of one own session on a slot the cache has changes nothing. */
  lemma OwnSessionOnCachedSlot(me: PeerId, a: Session, b: Session)
    requires b.peerId == me && a.serverIdx == b.serverIdx
    ensures RecordAccountantRun(Some([a]), me, Some([b])) == Some([a])
  {
    OwnSessionIsKept(me, b);
    CachedSlotIsNotFresh(a, b);
    assert [a] + [] == [a];
  }

  /** Two chunk runs whose own sessions share a server slot: the baseline
      built from the missing cache keeps the first run's session only. */
  lemma SharedSlotAcrossRunsKeepsFirst(me: PeerId, a: Session, b: Session)
    requires a.peerId == me && b.peerId == me && a.serverIdx == b.serverIdx
    ensures Baseline(None, me, [Some([a]), Some([b])]) == Some([a])
  {
    var runs := [Some([a]), Some([b])];
    var rest := [Some([b])];
    assert runs[0] == Some([a]) && runs[1..] == rest && rest[0] == Some([b]) && rest[1..] == [];
    OwnSessionOntoMissing(me, a);
    assert Baseline(None, me, runs) == Baseline(Some([a]), me, rest);
    OwnSessionOnCachedSlot(me, a, b);
    assert Baseline(Some([a]), me, rest) == Baseline(Some([a]), me, []);
  }

  /** Every successful run's own server slots end up in the baseline. */
  lemma {:induction false} BaselineKeepsEveryRun(cache: Option<seq<Session>>, me: PeerId,
                                                runs: seq<Option<seq<Session>>>, i: int)
    requires 0 <= i < |runs| && runs[i].Some?
    ensures Baseline(cache, me, runs).Some?
    ensures Slots(AccountantInferenceResults(runs[i].value, me)) <= Slots(Baseline(cache, me, runs).value)
    decreases |runs|
  {
    var next := RecordAccountantRun(cache, me, runs[0]);
    assert Baseline(cache, me, runs) == Baseline(next, me, runs[1..]);
    if i == 0 {
      assert RunSlots(runs[0], me) <= CachedSlots(next);
    } else {
      assert runs[i] == runs[1..][i - 1];
      BaselineKeepsEveryRun(next, me, runs[1..], i - 1);
    }
  }
}

=== FILE: block_range.dfy ===
/** The block range the Accountant must cover: the maximum block taken from the
    probe groups (`get_min_max_start_block_from_sequences`), its partition into
    chunks the Accountant can host at once, and the single-block task list the
    Accountant runs over each chunk (the inline code of `run_validator`). */
module BlockRange {
  import opened Records
  import opened SpanAssignment

  // ---------------------------------------------------------------------------
  // Maximum block
  // ---------------------------------------------------------------------------

  /** `e` is the largest task end of the group, and some task ends there. */
  predicate IsMaxEnd(g: seq<Task>, e: int) {
    && (exists i :: 0 <= i < |g| && g[i].end == e)
    && (forall i :: 0 <= i < |g| ==> g[i].end <= e)
  }

  /** `max(group, key=end)['end']` on a non-empty group. */
  function MaxEnd(g: seq<Task>): (e: int)
    requires g != []
    ensures IsMaxEnd(g, e)
  {
    if |g| == 1 then g[0].end
    else
      var rest := MaxEnd(g[1..]);
      assert forall i :: 1 <= i < |g| ==> g[i] == g[1..][i - 1];
      if g[0].end >= rest then g[0].end else rest
  }

  /** `get_min_max_start_block_from_sequences` (lines 473-482). Each group
      overwrites the previous one's bounds, so the upper bound comes from the
      last group alone; with no groups it is the model's block count; an empty
      group makes `min()` raise.  The lower bound returned is always 0. */
  method MinMaxBlocks(groups: seq<seq<Task>>, numModelBlocks: nat) returns (r: Result<Span>)
    ensures r.Err? <==> exists i :: 0 <= i < |groups| && groups[i] == []
    ensures r.Err? ==> r.error == EmptyGroup
    ensures r.Ok? ==> r.value.start == 0
    ensures r.Ok? && groups == [] ==> r.value.end == numModelBlocks
    ensures r.Ok? && groups != [] ==> IsMaxEnd(groups[|groups| - 1], r.value.end)
  {
    var endBlock: int := numModelBlocks;
    var i := 0;
    while i < |groups|
      invariant 0 <= i <= |groups|
      invariant forall j :: 0 <= j < i ==> groups[j] != []
      invariant i == 0 ==> endBlock == numModelBlocks
      invariant i > 0 ==> IsMaxEnd(groups[i - 1], endBlock)
    {
      if groups[i] == [] {
        return Err(EmptyGroup);
      }
      endBlock := MaxEnd(groups[i]);
      i := i + 1;
    }
    return Ok(Span(0, endBlock));
  }

  // ---------------------------------------------------------------------------
  // Chunk partition
  // ---------------------------------------------------------------------------

  /** The chunk size: the Accountant's own block count, capped at the
      maximum block (lines 246-248). */
  function ChunkSize(numBlocks: nat, maxBlock: nat): nat {
    if numBlocks > maxBlock then maxBlock else numBlocks
  }

  /** `spans` cuts [0, maxBlock) into consecutive non-empty chunks, all of
      size `k` except the last, which may be shorter and ends at `maxBlock`. */
  predicate IsChunking(spans: seq<Span>, k: int, maxBlock: int) {
    && |spans| >= 1
    && spans[0].start == 0
    && (forall i :: 0 <= i < |spans| - 1 ==> spans[i].end == spans[i + 1].start)
    && (forall i :: 0 <= i < |spans| ==> spans[i].start < spans[i].end)
    && (forall i :: 0 <= i < |spans| - 1 ==> spans[i].end - spans[i].start == k)
    && spans[|spans| - 1].end - spans[|spans| - 1].start <= k
    && spans[|spans| - 1].end == maxBlock
  }

  /** `spans` cuts [0, value) into consecutive chunks of size exactly `k`. */
  predicate FullChunks(spans: seq<Span>, k: int, value: int) {
    && |spans| >= 1
    && spans[0].start == 0
    && (forall i :: 0 <= i < |spans| - 1 ==> spans[i].end == spans[i + 1].start)
    && (forall i :: 0 <= i < |spans| ==> spans[i].start < spans[i].end)
    && (forall i :: 0 <= i < |spans| ==> spans[i].end - spans[i].start == k)
    && spans[|spans| - 1].end == value
  }

  lemma FullChunksGrow(spans: seq<Span>, k: int, value: int)
    requires FullChunks(spans, k, value) && k > 0
    ensures FullChunks(spans + [Span(value, value + k)], k, value + k)
  {
    var r := spans + [Span(value, value + k)];
    assert forall i :: 0 <= i < |spans| ==> r[i] == spans[i];
  }

  lemma FullChunksClose(spans: seq<Span>, k: int, value: int, maxBlock: int)
    requires FullChunks(spans, k, value) && value <= maxBlock < value + k
    ensures IsChunking(spans + (if value != maxBlock then [Span(value, maxBlock)] else []), k, maxBlock)
  {
    var r := spans + (if value != maxBlock then [Span(value, maxBlock)] else []);
    assert forall i :: 0 <= i < |spans| ==> r[i] == spans[i];
  }

  /** The chunk loop of lines 244-261: enumerate `range(0, 2 * maxBlock, k)`;
      the first value opens [0, k); every later one opens a full chunk while it
      fits, and otherwise closes with the remainder (unless nothing remains) and
      breaks. A chunk size of 0 makes `range` raise. */
  method AccountantChunks(numBlocks: nat, maxBlock: nat) returns (r: Result<seq<Span>>)
    ensures r.Err? <==> ChunkSize(numBlocks, maxBlock) == 0
    ensures r.Err? ==> r.error == ZeroStep
    ensures r.Ok? ==> IsChunking(r.value, ChunkSize(numBlocks, maxBlock), maxBlock)
  {
    var k := ChunkSize(numBlocks, maxBlock);
    if k == 0 {
      return Err(ZeroStep);
    }
    var spans: seq<Span> := [];
    var index := 0;
    var value := 0;
    while value < maxBlock + maxBlock
      invariant 0 <= value <= maxBlock
      invariant index == 0 <==> spans == []
      invariant index == 0 ==> value == 0
      invariant spans != [] ==> FullChunks(spans, k, value)
      decreases maxBlock + maxBlock - value
    {
      if index == 0 {
        spans := spans + [Span(value, value + k)];
      } else if value + k > maxBlock {
        FullChunksClose(spans, k, value, maxBlock);
        if value + k - k != maxBlock {
          spans := spans + [Span(value + k - k, maxBlock)];
        }
        return Ok(spans);
      } else {
        FullChunksGrow(spans, k, value);
        spans := spans + [Span(value + k - k, value + k)];
      }
      index := index + 1;
      value := value + k;
    }
  }

  /** Every block of [0, maxBlock) lies in exactly one chunk of a chunking. */
  lemma ChunkingCoversEachBlockOnce(spans: seq<Span>, k: int, maxBlock: int, x: int)
    requires IsChunking(spans, k, maxBlock)
    requires 0 <= x < maxBlock
    ensures exists i :: 0 <= i < |spans| && spans[i].start <= x < spans[i].end
    ensures forall i, j ::
              0 <= i < |spans| && 0 <= j < |spans| &&
              spans[i].start <= x < spans[i].end && spans[j].start <= x < spans[j].end
              ==> i == j
  {
    ChunkStartsIncrease(spans, k, maxBlock);
    var i := 0;
    while spans[i].end <= x
      invariant 0 <= i < |spans|
      invariant spans[i].start <= x
      decreases |spans| - i
    {
      i := i + 1;
    }
  }

  /** Chunks of a chunking are ordered: a later chunk starts at or after the
      end of an earlier one. */
  lemma ChunkStartsIncrease(spans: seq<Span>, k: int, maxBlock: int)
    requires IsChunking(spans, k, maxBlock)
    ensures forall i, j :: 0 <= i < j < |spans| ==> spans[i].end <= spans[j].start
  {
    forall i, j | 0 <= i < j < |spans| ensures spans[i].end <= spans[j].start {
      var m := i + 1;
      while m < j
        invariant i + 1 <= m <= j
        invariant spans[i].end <= spans[m].start
        decreases j - m
      {
        m := m + 1;
      }
    }
  }

  /** In a chunking with chunk size `k`, chunk `i` starts at block `i * k`. */
  lemma {:induction false} ChunkStartAt(spans: seq<Span>, k: int, maxBlock: int, i: int)
    requires IsChunking(spans, k, maxBlock)
    requires 0 <= i < |spans|
    ensures spans[i].start == i * k
    decreases i
  {
    if i > 0 {
      ChunkStartAt(spans, k, maxBlock, i - 1);
      assert (i - 1) * k + k == i * k;
    }
  }

  /** A chunking with a positive chunk size has fewer than `m + 1` chunks
      when its maximum block is at most `m * k`. */
  lemma ChunkCountBound(spans: seq<Span>, k: int, maxBlock: int, m: nat)
    requires IsChunking(spans, k, maxBlock) && k > 0
    requires maxBlock <= m * k
    ensures |spans| <= m
  {
    var last := |spans| - 1;
    ChunkStartAt(spans, k, maxBlock, last);
  }

  /** For a given chunk size and maximum block there is one chunking only, so
      `AccountantChunks` computes a function of its inputs. */
  lemma ChunkingIsUnique(a: seq<Span>, b: seq<Span>, k: int, maxBlock: int)
    requires IsChunking(a, k, maxBlock) && IsChunking(b, k, maxBlock) && k > 0
    ensures a == b
  {
    ChunkStartAt(a, k, maxBlock, |a| - 1);
    ChunkStartAt(b, k, maxBlock, |b| - 1);
    ChunkCountBound(a, k, maxBlock, |b|);
    ChunkCountBound(b, k, maxBlock, |a|);
    forall i | 0 <= i < |a| ensures a[i] == b[i] {
      ChunkStartAt(a, k, maxBlock, i);
      ChunkStartAt(b, k, maxBlock, i);
      if i < |a| - 1 {
        ChunkStartAt(a, k, maxBlock, i + 1);
        ChunkStartAt(b, k, maxBlock, i + 1);
      }
    }
  }

  // ---------------------------------------------------------------------------
  // Accountant task list per chunk
  // ---------------------------------------------------------------------------

  /** Reference: one single-block task of `me` per block of [start, end). */
  function SingleBlockTasks(me: PeerId, start: int, end: int): (ts: seq<Task>)
    ensures |ts| == (if end > start then end - start else 0)
  {
    var n := if end > start then end - start else 0;
    seq(n, i requires 0 <= i < n => Task(me, start + i, start + i + 1))
  }

  /** The hosting range read back from a task list (lines 293-294): the first
      task's start and the last task's end; an empty list raises. */
  function BlockIndices(tasks: seq<Task>): Result<Span> {
    if tasks == [] then Err(EmptyChunk) else Ok(Span(tasks[0].start, tasks[|tasks| - 1].end))
  }

  /** The task list of lines 271-286: enumerate `range(start, 2 * end - start, 2)`
      and emit `[value - index, value - index + 1)` (the first value as is).
      The stride-2 values minus their index walk the chunk one block at a
      time, so the list is exactly one task per block of [start, end). */
  method AccountantSpanRanges(me: PeerId, start: int, end: int) returns (tasks: seq<Task>)
    ensures tasks == SingleBlockTasks(me, start, end)
    ensures end > start ==> BlockIndices(tasks) == Ok(Span(start, end))
    ensures end <= start ==> BlockIndices(tasks) == Err(EmptyChunk)
  {
    var count := if end > start then end - start else 0;
    tasks := [];
    var index := 0;
    var value := start;
    while value < end + end - start
      invariant 0 <= index <= count
      invariant value == start + 2 * index
      invariant tasks == SingleBlockTasks(me, start, start + index)
      decreases end + end - start - value
    {
      if index == 0 {
        tasks := tasks + [Task(me, value, value + 1)];
      } else {
        tasks := tasks + [Task(me, value - index, value - index + 1)];
      }
      index := index + 1;
      value := value + 2;
    }
  }

  /** Concatenated task lists of the chunks, in chunk order. */
  function ChunkTasks(me: PeerId, spans: seq<Span>): seq<Task> {
    if spans == [] then []
    else ChunkTasks(me, spans[..|spans| - 1])
         + SingleBlockTasks(me, spans[|spans| - 1].start, spans[|spans| - 1].end)
  }

  lemma SingleBlockTasksSplit(me: PeerId, a: int, b: int, c: int)
    requires a <= b <= c
    ensures SingleBlockTasks(me, a, b) + SingleBlockTasks(me, b, c) == SingleBlockTasks(me, a, c)
  {
    var l, r, all := SingleBlockTasks(me, a, b), SingleBlockTasks(me, b, c), SingleBlockTasks(me, a, c);
    forall i | 0 <= i < |all| ensures (l + r)[i] == all[i] {
      if i >= |l| {
        assert (l + r)[i] == r[i - |l|];
      }
    }
  }

  /** Over a chunking of [0, maxBlock), the Accountant's baseline runs probe
      every block of [0, maxBlock) exactly once, in increasing order. */
  lemma {:induction false} BaselineProbesEveryBlockOnce(me: PeerId, spans: seq<Span>, k: int, maxBlock: int)
    requires IsChunking(spans, k, maxBlock)
    ensures ChunkTasks(me, spans) == SingleBlockTasks(me, 0, maxBlock)
  {
    PrefixTasks(me, spans, k, maxBlock, |spans|);
    assert spans[..|spans|] == spans;
  }

  lemma {:induction false} PrefixTasks(me: PeerId, spans: seq<Span>, k: int, maxBlock: int, j: int)
    requires IsChunking(spans, k, maxBlock)
    requires 1 <= j <= |spans|
    ensures ChunkTasks(me, spans[..j]) == SingleBlockTasks(me, 0, spans[j - 1].end)
  {
    var p := spans[..j];
    assert p[..j - 1] == spans[..j - 1];
    if j == 1 {
      assert p[..0] == [];
      SingleBlockTasksSplit(me, 0, 0, spans[0].end);
    } else {
      PrefixTasks(me, spans, k, maxBlock, j - 1);
      SingleBlockTasksSplit(me, 0, spans[j - 2].end, spans[j - 1].end);
    }
  }

  // ---------------------------------------------------------------------------
  // Examples
  // ---------------------------------------------------------------------------

  /** Three peers claiming [0, x], [x, y] and [y, z], one after the other. */
  function Consecutive(p: PeerId, q: PeerId, o: PeerId, x: int, y: int, z: int): seq<Claim> {
    [Claim(p, 0, x), Claim(q, x, y), Claim(o, y, z)]
  }

  /** Each of the three claims is first scanned at its start block. */
  lemma ConsecutiveFirstScanned(p: PeerId, q: PeerId, o: PeerId, x: int, y: int, z: int, k: int)
    requires 0 < x < y <= z && 0 <= k
    ensures var cs := Consecutive(p, q, o, x, y, z);
      FirstScannedAt(cs, k)
      == if k == 0 then [cs[0]] else if k == x then [cs[1]] else if k == y then [cs[2]] else []
  {
    var cs := Consecutive(p, q, o, x, y, z);
    FirstScannedCons(cs[0], [cs[1], cs[2]], k);
    FirstScannedCons(cs[1], [cs[2]], k);
    FirstScannedCons(cs[2], [], k);
    assert cs == [cs[0]] + [cs[1], cs[2]] && [cs[1], cs[2]] == [cs[1]] + [cs[2]] && [cs[2]] == [cs[2]] + [];
  }

  /** Blocks other than 0, x and y add nothing to the scan order. */
  lemma ConsecutiveQuiet(p: PeerId, q: PeerId, o: PeerId, x: int, y: int, z: int, lo: int, hi: int)
    requires 0 < x < y <= z && 0 < lo <= hi && !(lo <= x < hi) && !(lo <= y < hi)
    ensures ScanOrder(Consecutive(p, q, o, x, y, z), hi) == ScanOrder(Consecutive(p, q, o, x, y, z), lo)
  {
    forall k | lo <= k < hi ensures FirstScannedAt(Consecutive(p, q, o, x, y, z), k) == [] {
      ConsecutiveFirstScanned(p, q, o, x, y, z, k);
    }
    ScanOrderQuiet(Consecutive(p, q, o, x, y, z), lo, hi);
  }

  /** One pass over a model of more than `y` blocks reaches the three claims
      in listing order. */
  lemma ConsecutiveScanOrder(p: PeerId, q: PeerId, o: PeerId, x: int, y: int, z: int, n: int)
    requires 0 < x < y <= z && y < n
    ensures ScanOrder(Consecutive(p, q, o, x, y, z), n) == Consecutive(p, q, o, x, y, z)
  {
    var cs := Consecutive(p, q, o, x, y, z);
    ConsecutiveFirstScanned(p, q, o, x, y, z, 0);
    assert ScanOrder(cs, 1) == ScanOrder(cs, 0) + [cs[0]];
    ConsecutiveQuiet(p, q, o, x, y, z, 1, x);
    ConsecutiveFirstScanned(p, q, o, x, y, z, x);
    assert ScanOrder(cs, x + 1) == ScanOrder(cs, x) + [cs[1]];
    ConsecutiveQuiet(p, q, o, x, y, z, x + 1, y);
    ConsecutiveFirstScanned(p, q, o, x, y, z, y);
    assert ScanOrder(cs, y + 1) == ScanOrder(cs, y) + [cs[2]];
    ConsecutiveQuiet(p, q, o, x, y, z, y + 1, n);
  }

  /** The probe group of the three claims: one task on each claim's start
      block, so the maximum block is one past the last start. */
  lemma ConsecutiveTasks(p: PeerId, q: PeerId, o: PeerId, x: int, y: int, z: int, n: int)
    requires 0 < x < y <= z && y < n
    ensures AllScannable(Consecutive(p, q, o, x, y, z), n)
    ensures TasksOf(ScanOrder(Consecutive(p, q, o, x, y, z), n))
         == [Task(p, 0, 1), Task(q, x, x + 1), Task(o, y, y + 1)]
    ensures IsMaxEnd(TasksOf(ScanOrder(Consecutive(p, q, o, x, y, z), n)), y + 1)
  {
    var cs := Consecutive(p, q, o, x, y, z);
    ConsecutiveScanOrder(p, q, o, x, y, z, n);
    TasksOfThree(cs[0], cs[1], cs[2]);
    assert cs == [cs[0], cs[1], cs[2]];
    var g := [Task(p, 0, 1), Task(q, x, x + 1), Task(o, y, y + 1)];
    assert IsMaxEnd(g, y + 1) by {
      assert g[2].end == y + 1;
    }
  }

  lemma TasksOfThree(c0: Claim, c1: Claim, c2: Claim)
    ensures TasksOf([c0, c1, c2]) == [TaskOf(c0), TaskOf(c1), TaskOf(c2)]
  {
    TasksOfCons(c0, [c1, c2]);
    TasksOfCons(c1, [c2]);
    TasksOfCons(c2, []);
    assert [c0, c1, c2] == [c0] + [c1, c2] && [c1, c2] == [c1] + [c2] && [c2] == [c2] + [];
  }

  /** An Accountant hosting 40 blocks cuts [0, 81) into [0, 40), [40, 80)
      and [80, 81), and into nothing else. */
  lemma FortyBlockChunks()
    ensures ChunkSize(40, 81) == 40
    ensures IsChunking([Span(0, 40), Span(40, 80), Span(80, 81)], 40, 81)
    ensures forall spans :: IsChunking(spans, 40, 81) ==> spans == [Span(0, 40), Span(40, 80), Span(80, 81)]
  {
    forall spans | IsChunking(spans, 40, 81) ensures spans == [Span(0, 40), Span(40, 80), Span(80, 81)] {
      ChunkingIsUnique(spans, [Span(0, 40), Span(40, 80), Span(80, 81)], 40, 81);
    }
  }

  /** Three peers claiming [0, 40], [40, 80] and [80, 120] over a model of
      `n` blocks, 120 say, are all reached in one pass and probed on blocks
      0, 40 and 80, so the maximum block is 81 and an Accountant hosting 40
      blocks covers [0, 40), [40, 80) and [80, 81). */
  lemma ThreePeerScenario(p: PeerId, q: PeerId, o: PeerId, n: int)
    requires 81 <= n
    ensures AllScannable(Consecutive(p, q, o, 40, 80, 120), n)
    ensures TasksOf(ScanOrder(Consecutive(p, q, o, 40, 80, 120), n))
         == [Task(p, 0, 1), Task(q, 40, 41), Task(o, 80, 81)]
    ensures IsMaxEnd(TasksOf(ScanOrder(Consecutive(p, q, o, 40, 80, 120), n)), 81)
    ensures ChunkSize(40, 81) == 40
    ensures IsChunking([Span(0, 40), Span(40, 80), Span(80, 81)], 40, 81)
    ensures forall spans :: IsChunking(spans, 40, 81) ==> spans == [Span(0, 40), Span(40, 80), Span(80, 81)]
  {
    ConsecutiveTasks(p, q, o, 40, 80, 120, n);
    FortyBlockChunks();
  }
}

=== FILE: cross_validation.dfy ===
/** Cross-validation of one probe task: the plan walk that places the peer's
    task among the Accountant's cached single-block sessions, the comparison of
    the peer's reported outputs with the cached baseline, and the verdict
    recorded for the peer. */
module CrossValidation {
  import opened Records
  import opened Seqs
  import opened BaselineCache

  // ---------------------------------------------------------------------------
  // Plan walk
  // ---------------------------------------------------------------------------

  /** The cached sessions on the single block [b, b + 1), in cache order. */
  function CachedSegment(cache: seq<Session>, b: int): seq<Session> {
    Filter(cache, (s: Session) => OnSpan(s, b, b + 1))
  }

  /** The walk reaches the task's start block (its blocks are scanned from
      0 up) and `b` is one of the blocks the task then jumps over. */
  predicate Hosts(target: Task, b: int) {
    0 <= target.start <= b < target.end
  }

  /** Reference, block by block: for each block b of [0, hi) not hosted by
      the task whose cached segment is non-empty, that segment. */
  function Segments(cache: seq<Session>, target: Task, hi: int): seq<seq<Session>>
    decreases hi
  {
    if hi <= 0 then []
    else
      var b := hi - 1;
      Segments(cache, target, b)
        + (if Hosts(target, b) || CachedSegment(cache, b) == [] then [] else [CachedSegment(cache, b)])
  }

  /** The plan walk of lines 337-360: from block 0 through `maxBlock`, the
      task's start block contributes the task and jumps to its end; any other
      block contributes its cached segment, and the walk resumes at that
      segment's first `span_end`, or at the next block when the cache has
      none. A cached segment on [b, b + 1) always ends at b + 1, so the only
      jump longer than one block is over the task's own blocks. A task
      reached by the walk must end after it starts, or the walk never
      leaves it. */
  method PlanWalk(cache: seq<Session>, target: Task, maxBlock: nat)
    returns (ranges: seq<Task>, segments: seq<seq<Session>>)
    requires 0 <= target.start <= maxBlock ==> target.start < target.end
    ensures ranges == (if 0 <= target.start <= maxBlock then [target] else [])
    ensures segments == Segments(cache, target, maxBlock + 1)
    ensures AreCachedSegments(cache, target, maxBlock + 1, segments)
    ensures IncreasingBlocks(segments)
  {
    ranges, segments := WalkBlocks(cache, target, maxBlock);
    SegmentsAreCached(cache, target, maxBlock + 1);
  }

  /** The loop of lines 344-360 itself. */
  method WalkBlocks(cache: seq<Session>, target: Task, maxBlock: nat)
    returns (ranges: seq<Task>, segments: seq<seq<Session>>)
    requires 0 <= target.start <= maxBlock ==> target.start < target.end
    ensures ranges == (if 0 <= target.start <= maxBlock then [target] else [])
    ensures segments == Segments(cache, target, maxBlock + 1)
  {
    ranges := [];
    segments := [];
    var block := 0;
    while block <= maxBlock
      invariant WalkAt(cache, target, maxBlock, block, ranges, segments)
      decreases maxBlock + 1 - block
    {
      if target.start == block {
        WalkJumpsOverTask(cache, target, maxBlock, block, ranges, segments);
        ranges := ranges + [target];
        block := target.end;
      } else {
        WalkStepsOneBlock(cache, target, maxBlock, block, ranges, segments);
        var inputTensors := AccountInputTensors(cache, block, block + 1);
        if inputTensors.Some? {
          segments := segments + [inputTensors.value];
          block := inputTensors.value[0].spanEnd;
        } else {
          block := block + 1;
        }
      }
    }
    WalkEnds(cache, target, maxBlock, block, ranges, segments);
  }

  /** The state of the walk before block `block`: every block below it was
      visited or jumped over with the task, and the walk overshoots
      `maxBlock + 1` only by jumping over the task's last blocks. */
  predicate WalkAt(cache: seq<Session>, target: Task, maxBlock: int, block: int,
                   ranges: seq<Task>, segments: seq<seq<Session>>) {
    && 0 <= block
    && (block <= maxBlock + 1 || (0 <= target.start <= maxBlock && block == target.end))
    && (0 <= target.start < block ==> target.end <= block)
    && ranges == (if 0 <= target.start < block then [target] else [])
    && segments == Segments(cache, target, block)
  }

  lemma WalkJumpsOverTask(cache: seq<Session>, target: Task, maxBlock: int, block: int,
                          ranges: seq<Task>, segments: seq<seq<Session>>)
    requires WalkAt(cache, target, maxBlock, block, ranges, segments)
    requires block <= maxBlock && target.start == block
    requires target.start < target.end
    ensures WalkAt(cache, target, maxBlock, target.end, ranges + [target], segments)
  {
    SegmentsSkipTask(cache, target, target.end);
  }

  lemma WalkStepsOneBlock(cache: seq<Session>, target: Task, maxBlock: int, block: int,
                          ranges: seq<Task>, segments: seq<seq<Session>>)
    requires WalkAt(cache, target, maxBlock, block, ranges, segments)
    requires block <= maxBlock && target.start != block
    ensures var hit := AccountInputTensors(cache, block, block + 1);
      && WalkAt(cache, target, maxBlock, block + 1, ranges,
                segments + (if hit.Some? then [hit.value] else []))
      && (hit.Some? ==> hit.value[0].spanEnd == block + 1)
  {
    SegmentsStep(cache, target, block);
  }

  lemma WalkEnds(cache: seq<Session>, target: Task, maxBlock: int, block: int,
                 ranges: seq<Task>, segments: seq<seq<Session>>)
    requires WalkAt(cache, target, maxBlock, block, ranges, segments)
    requires block > maxBlock
    ensures ranges == (if 0 <= target.start <= maxBlock then [target] else [])
    ensures segments == Segments(cache, target, maxBlock + 1)
  {
    if block != maxBlock + 1 {
      SegmentsSkipTask(cache, target, maxBlock + 1);
      SegmentsSkipTask(cache, target, block);
    }
  }

  /** One more block of the reference, read through the cache lookup the
      walk performs. */
  lemma SegmentsStep(cache: seq<Session>, target: Task, b: int)
    requires 0 <= b
    ensures var hit := AccountInputTensors(cache, b, b + 1);
      && Segments(cache, target, b + 1)
         == Segments(cache, target, b) + (if Hosts(target, b) || hit.None? then [] else [hit.value])
      && (hit.Some? ==> hit.value[0].spanEnd == b + 1)
  {
  }

  /** The blocks the task jumps over add nothing to the reference. */
  lemma {:induction false} SegmentsSkipTask(cache: seq<Session>, target: Task, b: int)
    requires 0 <= target.start <= b <= target.end
    ensures Segments(cache, target, b) == Segments(cache, target, target.start)
    decreases b
  {
    if b > target.start {
      SegmentsSkipTask(cache, target, b - 1);
      assert Hosts(target, b - 1);
      assert Segments(cache, target, b) == Segments(cache, target, b - 1) + [];
    }
  }

  /** The first block a non-empty segment lies on. */
  function SegmentBlock(seg: seq<Session>): int
    requires seg != []
  {
    seg[0].spanStart
  }

  /** Each of `segs` is the non-empty cached segment of a block of [0, hi)
      the task does not host. */
  predicate AreCachedSegments(cache: seq<Session>, target: Task, hi: int, segs: seq<seq<Session>>) {
    forall i :: 0 <= i < |segs| ==>
      && segs[i] != []
      && 0 <= SegmentBlock(segs[i]) < hi
      && !Hosts(target, SegmentBlock(segs[i]))
      && segs[i] == CachedSegment(cache, SegmentBlock(segs[i]))
  }

  /** The segments lie on strictly increasing blocks. */
  predicate IncreasingBlocks(segs: seq<seq<Session>>) {
    forall i, j :: 0 <= i < j < |segs| ==>
      segs[i] != [] && segs[j] != [] && SegmentBlock(segs[i]) < SegmentBlock(segs[j])
  }

  /** The walk's segments are non-empty cached segments of blocks below `hi`,
      never of the task's blocks, in strictly increasing block order. */
  lemma {:induction false} SegmentsAreCached(cache: seq<Session>, target: Task, hi: int)
    ensures AreCachedSegments(cache, target, hi, Segments(cache, target, hi))
    ensures IncreasingBlocks(Segments(cache, target, hi))
    decreases hi
  {
    if hi > 0 {
      var b := hi - 1;
      var prev := Segments(cache, target, b);
      SegmentsAreCached(cache, target, b);
      var seg := CachedSegment(cache, b);
      var segs := Segments(cache, target, hi);
      assert segs == prev + (if Hosts(target, b) || seg == [] then [] else [seg]);
      if !Hosts(target, b) && seg != [] {
        assert seg[0] in cache && OnSpan(seg[0], b, b + 1);
      }
      forall i | 0 <= i < |segs|
        ensures && segs[i] != []
                && 0 <= SegmentBlock(segs[i]) < hi
                && !Hosts(target, SegmentBlock(segs[i]))
                && segs[i] == CachedSegment(cache, SegmentBlock(segs[i]))
      {
        if i < |prev| {
          assert segs[i] == prev[i];
        } else {
          assert segs[i] == seg;
        }
      }
      forall i, j | 0 <= i < j < |segs|
        ensures segs[i] != [] && segs[j] != [] && SegmentBlock(segs[i]) < SegmentBlock(segs[j])
      {
        assert segs[i] == prev[i];
        if j < |prev| {
          assert segs[j] == prev[j];
        } else {
          assert segs[j] == seg;
        }
      }
    }
  }

  /** Every block below `hi` not hosted by the task that has cached sessions
      contributes a segment to the walk. */
  lemma {:induction false} SegmentsComplete(cache: seq<Session>, target: Task, hi: int, b: int)
    requires 0 <= b < hi && !Hosts(target, b) && CachedSegment(cache, b) != []
    ensures var segs := Segments(cache, target, hi);
      exists i :: 0 <= i < |segs| && segs[i] == CachedSegment(cache, b)
    decreases hi
  {
    var prev := Segments(cache, target, hi - 1);
    var seg := CachedSegment(cache, hi - 1);
    var last := if Hosts(target, hi - 1) || seg == [] then [] else [seg];
    assert Segments(cache, target, hi) == prev + last;
    if b == hi - 1 {
      assert Segments(cache, target, hi)[|prev|] == seg;
    } else {
      SegmentsComplete(cache, target, hi - 1, b);
      var i :| 0 <= i < |prev| && prev[i] == CachedSegment(cache, b);
      assert Segments(cache, target, hi)[i] == prev[i];
    }
  }

  // ---------------------------------------------------------------------------
  // Tolerance
  // ---------------------------------------------------------------------------

  const RTOL: real := 0.001
  const ATOL: real := 0.8
  const VTOL: real := 0.8

  function Abs(x: real): real {
    if x < 0.0 then -x else x
  }

  /** The element rule of `torch.allclose(expected, outputs, rtol, atol)`: each
      baseline value lies within ATOL plus RTOL times the magnitude of the
      peer's value. */
  predicate AllClose(expected: seq<real>, outputs: seq<real>) {
    && |expected| == |outputs|
    && forall i :: 0 <= i < |expected| ==>
         Abs(expected[i] - outputs[i]) <= ATOL + RTOL * Abs(outputs[i])
  }

  /** A baseline of 10.0 accepts a peer value of 10.79 and rejects 10.82. */
  lemma AllCloseBoundary()
    ensures AllClose([10.0], [10.79])
    ensures !AllClose([10.0], [10.82])
  {
    assert [10.0][0] == 10.0 && [10.82][0] == 10.82;
    assert Abs(10.0 - 10.82) == 0.82;
  }

  /** The relative term follows the peer's value, so swapping the two sides
      can change the outcome. */
  lemma AllCloseIsNotSymmetric()
    ensures AllClose([0.0], [0.8005])
    ensures !AllClose([0.8005], [0.0])
  {
    assert [0.8005][0] == 0.8005 && [0.0][0] == 0.0;
  }

  // ---------------------------------------------------------------------------
  // Verdict
  // ---------------------------------------------------------------------------

  /** One compared position (`PeerInferenceSequenceData` without the two
      tensor sums it also stores, which are tensor numerics). */
  datatype Comparison = Comparison(position: int, passed: bool)

  /** The record `add_data` receives for a validated peer task. */
  datatype PeerRecord = PeerRecord(
    peerId: PeerId,
    valid: bool,
    spanStart: int,
    spanEnd: int,
    comparisons: seq<Comparison>)

  /** The number of passed comparisons (`sum(valid)`). */
  function Passed(cs: seq<Comparison>): (n: nat)
    ensures n <= |cs|
  {
    if cs == [] then 0
    else Passed(cs[..|cs| - 1]) + (if cs[|cs| - 1].passed then 1 else 0)
  }

  /** The verdict of lines 632-637: the pass rate, taken as 0 when nothing was
      compared, must not fall below VTOL. */
  function Verdict(cs: seq<Comparison>): (valid: bool)
    ensures valid <==> |cs| > 0 && 5 * Passed(cs) >= 4 * |cs|
  {
    var n, p := |cs| as real, Passed(cs) as real;
    var rate := if |cs| > 0 then p / n else 0.0;
    if |cs| > 0 then
      RateBelow(p, n);
      !(rate < VTOL)
    else
      !(rate < VTOL)
  }

  lemma RateBelow(p: real, n: real)
    requires n > 0.0
    ensures p / n < VTOL <==> 5.0 * p < 4.0 * n
  {
    var rate := p / n;
    assert rate * n == p;
    if rate < VTOL {
      assert (VTOL - rate) * n > 0.0;
    } else {
      assert (rate - VTOL) * n >= 0.0;
    }
  }

  /** The session is the one under validation and has a cached baseline. */
  predicate Comparable(me: PeerId, cache: seq<Session>, peerId: PeerId, s: Session) {
    s.peerId == peerId && InferenceByPosition(me, cache, s.spanStart, s.spanEnd, s.position).Some?
  }

  /** The comparison of a comparable session against its cached baseline. */
  function Compare(me: PeerId, cache: seq<Session>, agree: (seq<real>, seq<real>) -> bool, s: Session)
    : Comparison
    requires InferenceByPosition(me, cache, s.spanStart, s.spanEnd, s.position).Some?
  {
    var baseline := InferenceByPosition(me, cache, s.spanStart, s.spanEnd, s.position).value;
    Comparison(s.position, agree(baseline.outputs, s.outputs))
  }

  /** The comparisons of lines 576-623 over `sessions`, in order: sessions of
      other peers and sessions without a cached baseline are skipped. */
  function Compared(me: PeerId, cache: seq<Session>, peerId: PeerId,
                    agree: (seq<real>, seq<real>) -> bool, sessions: seq<Session>)
    : seq<Comparison>
    decreases |sessions|
  {
    if sessions == [] then []
    else
      var init, s := sessions[..|sessions| - 1], sessions[|sessions| - 1];
      Compared(me, cache, peerId, agree, init)
        + (if Comparable(me, cache, peerId, s) then [Compare(me, cache, agree, s)] else [])
  }

  /** Reference: the comparable sessions, each compared. */
  function CompareAll(me: PeerId, cache: seq<Session>, agree: (seq<real>, seq<real>) -> bool,
                      comparable: seq<Session>)
    : seq<Comparison>
    requires forall i :: 0 <= i < |comparable| ==>
               InferenceByPosition(me, cache, comparable[i].spanStart, comparable[i].spanEnd,
                                   comparable[i].position).Some?
  {
    seq(|comparable|, i requires 0 <= i < |comparable| => Compare(me, cache, agree, comparable[i]))
  }

  lemma CompareAllSnoc(me: PeerId, cache: seq<Session>, agree: (seq<real>, seq<real>) -> bool,
                       xs: seq<Session>, s: Session)
    requires forall i :: 0 <= i < |xs| ==>
               InferenceByPosition(me, cache, xs[i].spanStart, xs[i].spanEnd, xs[i].position).Some?
    requires InferenceByPosition(me, cache, s.spanStart, s.spanEnd, s.position).Some?
    ensures CompareAll(me, cache, agree, xs + [s])
            == CompareAll(me, cache, agree, xs) + [Compare(me, cache, agree, s)]
  {
    var all := xs + [s];
    assert forall i :: 0 <= i < |xs| ==> all[i] == xs[i];
  }

  /** The comparisons are exactly the comparable sessions, in order, each
      compared once: other peers' sessions and uncached positions count for
      nothing. */
  lemma {:induction false} ComparedIsFilterThenCompare(me: PeerId, cache: seq<Session>, peerId: PeerId,
                                                       agree: (seq<real>, seq<real>) -> bool,
                                                       sessions: seq<Session>)
    ensures Compared(me, cache, peerId, agree, sessions)
            == CompareAll(me, cache, agree, Filter(sessions, (s: Session) => Comparable(me, cache, peerId, s)))
    decreases |sessions|
  {
    var p := (s: Session) => Comparable(me, cache, peerId, s);
    if sessions != [] {
      var init, s := sessions[..|sessions| - 1], sessions[|sessions| - 1];
      ComparedIsFilterThenCompare(me, cache, peerId, agree, init);
      var f := Filter(init, p);
      var all := Filter(sessions, p);
      if p(s) {
        assert all == f + [s];
        CompareAllSnoc(me, cache, agree, f, s);
      } else {
        assert all == f + [];
        assert Compared(me, cache, peerId, agree, sessions)
               == Compared(me, cache, peerId, agree, init) + [];
      }
    }
  }

  /** `validate_inference_results` (lines 557-645) for the task `peer`: compare
      the sessions against the cache and append one record to the log. */
  method ValidateInferenceResults(me: PeerId, cache: seq<Session>, peer: Task,
                                  sessions: seq<Session>, agree: (seq<real>, seq<real>) -> bool,
                                  log: seq<PeerRecord>)
    returns (log': seq<PeerRecord>)
    ensures |log'| == |log| + 1 && log'[..|log|] == log
    ensures log'[|log|].peerId == peer.peerId
    ensures log'[|log|].spanStart == peer.start && log'[|log|].spanEnd == peer.end
    ensures log'[|log|].comparisons == Compared(me, cache, peer.peerId, agree, sessions)
    ensures log'[|log|].valid <==>
              var cs := log'[|log|].comparisons; |cs| > 0 && 5 * Passed(cs) >= 4 * |cs|
  {
    var comparisons: seq<Comparison> := [];
    for i := 0 to |sessions|
      invariant comparisons == Compared(me, cache, peer.peerId, agree, sessions[..i])
    {
      var session := sessions[i];
      assert sessions[..i + 1][..i] == sessions[..i];
      if session.peerId != peer.peerId {
        continue;
      }
      var baseline := InferenceByPosition(me, cache, session.spanStart, session.spanEnd, session.position);
      if baseline.None? {
        continue;
      }
      comparisons := comparisons
        + [Comparison(session.position, agree(baseline.value.outputs, session.outputs))];
    }
    assert sessions[..|sessions|] == sessions;
    log' := log + [PeerRecord(peer.peerId, Verdict(comparisons), peer.start, peer.end, comparisons)];
  }

  lemma ThreeOfFourIsInvalid()
    ensures !Verdict([Comparison(0, true), Comparison(1, true), Comparison(2, true), Comparison(3, false)])
  {
    var cs := [Comparison(0, true), Comparison(1, true), Comparison(2, true), Comparison(3, false)];
    PassedExample(cs);
  }

  lemma FourOfFourIsValid()
    ensures Verdict([Comparison(0, true), Comparison(1, true), Comparison(2, true), Comparison(3, true)])
  {
    var cs := [Comparison(0, true), Comparison(1, true), Comparison(2, true), Comparison(3, true)];
    PassedExample(cs);
  }

  lemma PassedExample(cs: seq<Comparison>)
    requires |cs| == 4 && cs[0].passed && cs[1].passed && cs[2].passed
    ensures Passed(cs) == if cs[3].passed then 4 else 3
  {
    assert cs[..|cs| - 1] == cs[..3];
    assert cs[..3][..2] == cs[..2] && cs[..2][..1] == cs[..1] && cs[..1][..0] == [];
    assert Passed(cs[..1]) == 1;
    assert Passed(cs[..2]) == 2;
    assert Passed(cs[..3]) == 3;
  }

  lemma NothingComparedIsInvalid()
    ensures !Verdict([])
  {
  }

  // ---------------------------------------------------------------------------
  // One probe task
  // ---------------------------------------------------------------------------

  /** The cached segments joined in block order into the list handed to the
      runtime as `input_tensor` (lines 362-365). */
  method JoinSegments(segments: seq<seq<Session>>) returns (tensors: seq<Session>)
    ensures tensors == Flatten(segments)
  {
    tensors := [];
    for i := 0 to |segments|
      invariant tensors == Flatten(segments[..i])
    {
      assert segments[..i + 1][..i] == segments[..i];
      tensors := tensors + segments[i];
    }
    assert segments[..|segments|] == segments;
  }

  /** One step of the validation loop (lines 340-374) for `target`: plan the
      walk, hand the peer task and the joined cached segments to the hosting
      runtime `run` (nothing when it raised), and record the verdict. A failed
      run makes the iteration over its result raise. */
  method ValidateTask(me: PeerId, cache: seq<Session>, target: Task, maxBlock: nat,
                      run: (seq<Task>, seq<Session>) -> Option<seq<Session>>,
                      agree: (seq<real>, seq<real>) -> bool, log: seq<PeerRecord>)
    returns (r: Result<seq<PeerRecord>>)
    requires 0 <= target.start <= maxBlock ==> target.start < target.end
    ensures
      var ranges := if 0 <= target.start <= maxBlock then [target] else [];
      var tensors := Flatten(Segments(cache, target, maxBlock + 1));
      && (run(ranges, tensors).None? ==> r == Err(NoSessions))
      && (run(ranges, tensors).Some? ==>
            && r.Ok? && |r.value| == |log| + 1 && r.value[..|log|] == log
            && r.value[|log|].peerId == target.peerId
            && r.value[|log|].spanStart == target.start && r.value[|log|].spanEnd == target.end
            && r.value[|log|].comparisons
               == Compared(me, cache, target.peerId, agree, run(ranges, tensors).value)
            && (r.value[|log|].valid <==>
                  var cs := r.value[|log|].comparisons; |cs| > 0 && 5 * Passed(cs) >= 4 * |cs|))
  {
    var ranges, segments := PlanWalk(cache, target, maxBlock);
    var tensors := JoinSegments(segments);
    var sessions := run(ranges, tensors);
    if sessions.None? {
      return Err(NoSessions);
    }
    var log' := ValidateInferenceResults(me, cache, target, sessions.value, agree, log);
    return Ok(log');
  }
}

=== FILE: peer_filters.dfy ===
/** The peer directory filters: the self-exclusion of `update_peers` and the
    range selections over the peers to validate. */
module PeerFilters {
  import opened Records
  import opened Seqs

  /** `update_peers` (lines 703-714) on the directory listing (nothing when the
      directory returned None): the peers to validate are the listed claims
      of every peer but the validator itself, in listing order. */
  function UpdatePeers(listing: Option<seq<Claim>>, me: PeerId): (peers: seq<Claim>)
    ensures forall i :: 0 <= i < |peers| ==> peers[i].peerId != me
    ensures listing.None? ==> peers == []
    ensures listing.Some? ==>
      && (forall i :: 0 <= i < |peers| ==> peers[i] in listing.value)
      && (forall i :: 0 <= i < |listing.value| && listing.value[i].peerId != me ==> listing.value[i] in peers)
      && IsSubsequenceWhere(peers, listing.value, (c: Claim) => c.peerId != me)
  {
    match listing
    case None => []
    case Some(claims) =>
      FilterIsSubsequence(claims, (c: Claim) => c.peerId != me);
      Filter(claims, (c: Claim) => c.peerId != me)
  }

  /** Every listed claim of another peer is kept as often as it is listed. */
  lemma UpdatePeersCount(claims: seq<Claim>, me: PeerId, c: Claim)
    ensures multiset(UpdatePeers(Some(claims), me))[c]
            == if c.peerId != me then multiset(claims)[c] else 0
  {
    FilterCount(claims, (x: Claim) => x.peerId != me, c);
  }

  /** Another peer's claim on exactly [spanStart, spanEnd]. */
  predicate ExactlyOn(me: PeerId, spanStart: int, spanEnd: int, c: Claim) {
    c.peerId != me && c.spanStart == spanStart && c.spanEnd == spanEnd
  }

  /** Another peer's claim lying inside [spanStart, spanEnd]. */
  predicate Inside(me: PeerId, spanStart: int, spanEnd: int, c: Claim) {
    c.peerId != me && c.spanStart >= spanStart && c.spanEnd <= spanEnd
  }

  /** `_get_peers_data_in_range` (lines 719-725): the other peers' claims on
      exactly the given bounds, in order. */
  function PeersInRange(peers: seq<Claim>, me: PeerId, spanStart: int, spanEnd: int): (r: seq<Claim>)
    ensures forall i :: 0 <= i < |r| ==> r[i] in peers && ExactlyOn(me, spanStart, spanEnd, r[i])
    ensures forall i :: 0 <= i < |peers| && ExactlyOn(me, spanStart, spanEnd, peers[i]) ==> peers[i] in r
    ensures IsSubsequenceWhere(r, peers, (c: Claim) => ExactlyOn(me, spanStart, spanEnd, c))
  {
    FilterIsSubsequence(peers, (c: Claim) => ExactlyOn(me, spanStart, spanEnd, c));
    Filter(peers, (c: Claim) => ExactlyOn(me, spanStart, spanEnd, c))
  }

  /** `_get_peers_data_within_range` (lines 727-741): the other peers' claims
      inside the given bounds, in order. */
  function PeersWithinRange(peers: seq<Claim>, me: PeerId, spanStart: int, spanEnd: int): (r: seq<Claim>)
    ensures forall i :: 0 <= i < |r| ==> r[i] in peers && Inside(me, spanStart, spanEnd, r[i])
    ensures forall i :: 0 <= i < |peers| && Inside(me, spanStart, spanEnd, peers[i]) ==> peers[i] in r
    ensures IsSubsequenceWhere(r, peers, (c: Claim) => Inside(me, spanStart, spanEnd, c))
  {
    FilterIsSubsequence(peers, (c: Claim) => Inside(me, spanStart, spanEnd, c));
    Filter(peers, (c: Claim) => Inside(me, spanStart, spanEnd, c))
  }

  /** The exact-range peers are the within-range peers whose claim has exactly
      the given bounds, in the same order. */
  lemma InRangeRefinesWithinRange(peers: seq<Claim>, me: PeerId, spanStart: int, spanEnd: int)
    ensures PeersInRange(peers, me, spanStart, spanEnd)
            == Filter(PeersWithinRange(peers, me, spanStart, spanEnd),
                      (c: Claim) => ExactlyOn(me, spanStart, spanEnd, c))
  {
    FilterNarrows(peers, (c: Claim) => ExactlyOn(me, spanStart, spanEnd, c),
                  (c: Claim) => Inside(me, spanStart, spanEnd, c));
  }
}

=== FILE: readiness.dfy ===
/** The readiness test the Accountant polls before running a chunk (lines
    301-328): the runtime hosts blocks [start_block, end_block) and the
    chunk's task list asks for [span_start, span_end). */
module Readiness {
  import opened Records

  /** The test as written at line 310: keep waiting only while BOTH ends
      differ, so the Accountant goes ahead as soon as either end matches. */
  function ReadyAsWritten(hosted: Span, wanted: Span): (ready: bool)
    ensures ready <==> hosted.start == wanted.start || hosted.end == wanted.end
  {
    !(hosted.start != wanted.start && hosted.end != wanted.end)
  }

  /** While the runtime still hosts [0, 40) and the chunk is [0, 81), the test
      as written lets the Accountant run on the wrong blocks. */
  lemma HalfMatchPassesAsWritten()
    ensures ReadyAsWritten(Span(0, 40), Span(0, 81))
    ensures Span(0, 40) != Span(0, 81)
  {
  }

  /** The evidently intended test: wait while EITHER end differs. */
  function Ready(hosted: Span, wanted: Span): (ready: bool)
    ensures ready <==> hosted == wanted
  {
    !(hosted.start != wanted.start || hosted.end != wanted.end)
  }

  /** The intended test is never weaker than the test as written, and the two
      differ exactly on half matches. */
  lemma ReadyRefinesAsWritten(hosted: Span, wanted: Span)
    ensures Ready(hosted, wanted) ==> ReadyAsWritten(hosted, wanted)
    ensures ReadyAsWritten(hosted, wanted) && !Ready(hosted, wanted)
            <==> (hosted.start == wanted.start) != (hosted.end == wanted.end)
  {
  }
}

=== FILE: records.dfy ===
/** Records exchanged by the inference validator: peer shard claims, single-block
    probe tasks, inference sessions (baseline cache entries) and the failure
    datatypes used for the source's exceptions. */
module Records {

  /** Identity of a peer on the network (a libp2p peer id in the source). */
  type PeerId = string

  /** A peer's declared block range; both ends are inclusive when scanned. */
  datatype Claim = Claim(peerId: PeerId, spanStart: int, spanEnd: int)

  /** A probe task `{peer_id, start, end}`: run `peerId` on blocks [start, end). */
  datatype Task = Task(peerId: PeerId, start: int, end: int)

  /** A chunk of the model the Accountant hosts at once: blocks [start, end). */
  datatype Span = Span(start: int, end: int)

  /** One per-position inference result reported by the hosting runtime, as
      stored in the baseline cache: who ran it, on which span, at which token
      position, on which server slot, and the output values. */
  datatype Session = Session(
    peerId: PeerId,
    spanStart: int,
    spanEnd: int,
    position: int,
    serverIdx: int,
    outputs: seq<real>)

  datatype Option<+T> = None | Some(value: T)

  /** The Python exceptions the modelled code can raise. */
  datatype Error =
    | EmptyGroup      // min()/max() over an empty probe group (ValueError)
    | ZeroStep        // range() with a step of zero (ValueError)
    | EmptyChunk      // indexing an empty Accountant task list (IndexError)
    | NoSessions      // iterating the None an inference call returned (TypeError)

  datatype Result<+T> = Ok(value: T) | Err(error: Error)
}

=== FILE: seqs.dfy ===
/** Sequence scans the validator writes as list comprehensions, `for ... append`
    loops and `next(...)` generator lookups. */
module Seqs {
  import opened Records

  /** The elements of `xs` satisfying `p`, in their original order. */
  function Filter<T>(xs: seq<T>, p: T -> bool): (r: seq<T>)
    ensures |r| <= |xs|
    ensures forall i :: 0 <= i < |r| ==> r[i] in xs && p(r[i])
    ensures forall i :: 0 <= i < |xs| && p(xs[i]) ==> xs[i] in r
  {
    if xs == [] then []
    else
      var init := xs[..|xs| - 1];
      assert forall i :: 0 <= i < |xs| - 1 ==> xs[i] == init[i];
      Filter(init, p) + (if p(xs[|xs| - 1]) then [xs[|xs| - 1]] else [])
  }

  /** `r` lists the elements of `xs` at the strictly increasing indices `idx`,
      and `idx` holds every index whose element satisfies `p` and no other:
      `r` is the subsequence of `xs` made of its `p`-elements, in order and
      with their multiplicity. */
  ghost predicate PicksAt<T>(r: seq<T>, xs: seq<T>, p: T -> bool, idx: seq<int>) {
    && |idx| == |r|
    && (forall k :: 0 <= k < |idx| ==> 0 <= idx[k] < |xs| && r[k] == xs[idx[k]] && p(xs[idx[k]]))
    && (forall k, l :: 0 <= k < l < |idx| ==> idx[k] < idx[l])
    && (forall i :: 0 <= i < |xs| && p(xs[i]) ==> i in idx)
  }

  /** `r` is the subsequence of `xs` made of exactly its `p`-elements. */
  ghost predicate IsSubsequenceWhere<T>(r: seq<T>, xs: seq<T>, p: T -> bool) {
    exists idx :: PicksAt(r, xs, p, idx)
  }

  /** `Filter` keeps the satisfying elements in their original order. */
  lemma {:induction false} FilterIsSubsequence<T>(xs: seq<T>, p: T -> bool)
    ensures IsSubsequenceWhere(Filter(xs, p), xs, p)
  {
    if xs == [] {
      assert PicksAt([], xs, p, []);
    } else {
      var init, last := xs[..|xs| - 1], xs[|xs| - 1];
      FilterIsSubsequence(init, p);
      var idx :| PicksAt(Filter(init, p), init, p, idx);
      assert xs == init + [last];
      PicksSnoc(Filter(init, p), init, p, idx, last);
    }
  }

  /** One more element of `xs`: picked at the next index when it satisfies
      `p`, skipped otherwise. */
  lemma PicksSnoc<T>(r: seq<T>, xs: seq<T>, p: T -> bool, idx: seq<int>, x: T)
    requires PicksAt(r, xs, p, idx)
    ensures PicksAt(r + (if p(x) then [x] else []), xs + [x], p, idx + (if p(x) then [|xs|] else []))
  {
    var r', xs', idx' := r + (if p(x) then [x] else []), xs + [x], idx + (if p(x) then [|xs|] else []);
    forall k | 0 <= k < |idx'|
      ensures 0 <= idx'[k] < |xs'| && r'[k] == xs'[idx'[k]] && p(xs'[idx'[k]])
    {
      if k < |idx| {
        assert idx'[k] == idx[k] && r'[k] == r[k] && xs'[idx[k]] == xs[idx[k]];
      }
    }
    forall i | 0 <= i < |xs'| && p(xs'[i]) ensures i in idx' {
      if i < |xs| {
        assert xs'[i] == xs[i];
      }
    }
  }

  /** Filtering leaves nothing exactly when no element satisfies `p`. */
  lemma FilterIsEmpty<T>(xs: seq<T>, p: T -> bool)
    ensures Filter(xs, p) == [] <==> forall i :: 0 <= i < |xs| ==> !p(xs[i])
  {
    if Filter(xs, p) != [] {
      assert Filter(xs, p)[0] in xs;
    }
  }

  /** Filtering keeps every satisfying element as often as it occurs, and
      nothing else. */
  lemma {:induction false} FilterCount<T>(xs: seq<T>, p: T -> bool, x: T)
    ensures multiset(Filter(xs, p))[x] == if p(x) then multiset(xs)[x] else 0
  {
    if xs != [] {
      var init := xs[..|xs| - 1];
      FilterCount(init, p, x);
      assert xs == init + [xs[|xs| - 1]];
    }
  }

  lemma {:induction false} FilterAppend<T>(xs: seq<T>, ys: seq<T>, p: T -> bool)
    ensures Filter(xs + ys, p) == Filter(xs, p) + Filter(ys, p)
    decreases |ys|
  {
    if ys != [] {
      var init := ys[..|ys| - 1];
      assert (xs + ys)[..|xs + ys| - 1] == xs + init;
      FilterAppend(xs, init, p);
    } else {
      assert xs + ys == xs;
    }
  }

  /** Filtering by a stronger predicate after a weaker one is filtering by
      the stronger predicate alone. */
  lemma {:induction false} FilterNarrows<T>(xs: seq<T>, p: T -> bool, q: T -> bool)
    requires forall x :: p(x) ==> q(x)
    ensures Filter(Filter(xs, q), p) == Filter(xs, p)
  {
    if xs != [] {
      var init, last := xs[..|xs| - 1], xs[|xs| - 1];
      FilterNarrows(init, p, q);
      FilterAppend(Filter(init, q), if q(last) then [last] else [], p);
      assert Filter([last], p) == if p(last) then [last] else [] by {
        assert [last][..0] == [];
      }
      assert Filter([], p) == [];
    }
  }

  /** The first element of `xs` satisfying `p`, as `next(gen, None)`. */
  function First<T>(xs: seq<T>, p: T -> bool): (r: Option<T>)
    ensures r.None? <==> forall i :: 0 <= i < |xs| ==> !p(xs[i])
    ensures r.Some? ==>
      exists i :: 0 <= i < |xs| && xs[i] == r.value && p(xs[i]) && forall j :: 0 <= j < i ==> !p(xs[j])
  {
    if xs == [] then None
    else if p(xs[0]) then Some(xs[0])
    else
      var rest := First(xs[1..], p);
      assert forall i :: 1 <= i < |xs| ==> xs[i] == xs[1..][i - 1];
      rest
  }

  /** The lists of `xss` joined in order. */
  function Flatten<T>(xss: seq<seq<T>>): seq<T> {
    if xss == [] then [] else Flatten(xss[..|xss| - 1]) + xss[|xss| - 1]
  }
}

=== FILE: span_assignment.dfy ===
/** Span assignment (`get_peers_validation_spans`): turns the pending peer
    shard claims into groups of single-block probe tasks by scanning the blocks
    of the model from 0 upwards. */
module SpanAssignment {
  import opened Records

  // ---------------------------------------------------------------------------
  // Claims and blocks
  // ---------------------------------------------------------------------------

  /** Block `b` lies in the claim's range; both ends are inclusive. */
  predicate Covers(c: Claim, b: int) {
    c.spanStart <= b <= c.spanEnd
  }

  /** The first block a scan starting at 0 can meet inside the claim. */
  function FirstHit(c: Claim): int {
    if c.spanStart < 0 then 0 else c.spanStart
  }

  /** Some block of [0, b) lies in the claim. */
  predicate HitBefore(c: Claim, b: int) {
    FirstHit(c) <= c.spanEnd && FirstHit(c) < b
  }

  /** The probe task a claim yields: its first scanned block, one block wide. */
  function TaskOf(c: Claim): Task {
    Task(c.peerId, FirstHit(c), FirstHit(c) + 1)
  }

  /** `HitBefore` is the closed form of "a block of [0, b) is covered". */
  lemma HitBeforeIsCoverage(c: Claim, b: int)
    ensures HitBefore(c, b) <==> exists k :: 0 <= k < b && Covers(c, k)
  {
    if HitBefore(c, b) {
      assert Covers(c, FirstHit(c));
    }
  }

  // ---------------------------------------------------------------------------
  // Filters over the pending list
  // ---------------------------------------------------------------------------

  /** The claims covering block `b`, in list order (the comprehension of line 451). */
  function Covering(cs: seq<Claim>, b: int): seq<Claim> {
    if cs == [] then []
    else (if Covers(cs[0], b) then [cs[0]] else []) + Covering(cs[1..], b)
  }

  /** The claims not covering block `b`, in list order. */
  function Missing(cs: seq<Claim>, b: int): seq<Claim> {
    if cs == [] then []
    else (if Covers(cs[0], b) then [] else [cs[0]]) + Missing(cs[1..], b)
  }

  /** The claims none of whose blocks in [0, b) was scanned yet. */
  function Pending(cs: seq<Claim>, b: int): seq<Claim> {
    if cs == [] then []
    else (if HitBefore(cs[0], b) then [] else [cs[0]]) + Pending(cs[1..], b)
  }

  /** The claims some block of [0, b) already reached. */
  function Reached(cs: seq<Claim>, b: int): seq<Claim> {
    if cs == [] then []
    else (if HitBefore(cs[0], b) then [cs[0]] else []) + Reached(cs[1..], b)
  }

  /** The task of every claim, in order. */
  function TasksOf(cs: seq<Claim>): seq<Task> {
    if cs == [] then [] else [TaskOf(cs[0])] + TasksOf(cs[1..])
  }

  /** The tasks the scan appends for the claims `cs` found at block `b` (456-463). */
  function TasksAt(cs: seq<Claim>, b: int): seq<Task> {
    if cs == [] then [] else [Task(cs[0].peerId, b, b + 1)] + TasksAt(cs[1..], b)
  }

  /** The claims whose first scanned block is `b`, in list order. */
  function FirstScannedAt(cs: seq<Claim>, b: int): seq<Claim> {
    if cs == [] then []
    else
      (if HitBefore(cs[0], b + 1) && !HitBefore(cs[0], b) then [cs[0]] else [])
      + FirstScannedAt(cs[1..], b)
  }

  /** Reference order of a pass's tasks: the claims first scanned at block 0,
      then those first scanned at block 1, and so on up to block hi - 1; within
      one block, in list order. */
  function ScanOrder(cs: seq<Claim>, hi: int): seq<Claim>
    decreases hi
  {
    if hi <= 0 then [] else ScanOrder(cs, hi - 1) + FirstScannedAt(cs, hi - 1)
  }

  /** Blocks where no claim is first scanned add nothing to the scan order. */
  lemma {:induction false} ScanOrderQuiet(cs: seq<Claim>, lo: int, hi: int)
    requires 0 <= lo <= hi
    requires forall k :: lo <= k < hi ==> FirstScannedAt(cs, k) == []
    ensures ScanOrder(cs, hi) == ScanOrder(cs, lo)
    decreases hi
  {
    if hi > lo {
      ScanOrderQuiet(cs, lo, hi - 1);
      assert ScanOrder(cs, hi) == ScanOrder(cs, hi - 1) + [];
    }
  }

  /** Every claim of `cs` yields a task on some block of [0, n). */
  predicate AllScannable(cs: seq<Claim>, n: int) {
    forall i :: 0 <= i < |cs| ==> HitBefore(cs[i], n)
  }

  /** Tasks in nondecreasing start block. */
  predicate Sorted(ts: seq<Task>) {
    forall i, j :: 0 <= i < j < |ts| ==> ts[i].start <= ts[j].start
  }

  /** Every task is one block wide, on a block of [lo, hi). */
  predicate SingleBlocksIn(ts: seq<Task>, lo: int, hi: int) {
    forall i :: 0 <= i < |ts| ==> lo <= ts[i].start < hi && ts[i].end == ts[i].start + 1
  }

  // ---------------------------------------------------------------------------
  // list.remove
  // ---------------------------------------------------------------------------

  /** Python's `list.remove(x)`: drops the first element equal to `x` and
      keeps the others in order. */
  function RemoveFirst(xs: seq<Claim>, x: Claim): (r: seq<Claim>)
    requires x in xs
    ensures DropsAt(xs, IndexOf(xs, x), r)
    ensures multiset(r) == multiset(xs) - multiset{x}
  {
    var r := if xs[0] == x then xs[1..] else [xs[0]] + RemoveFirst(xs[1..], x);
    assert DropsAt(xs, IndexOf(xs, x), r) by {
      if xs[0] != x {
        assert xs == [xs[0]] + xs[1..];
        DropsAtCons(xs[0], xs[1..], IndexOf(xs[1..], x), RemoveFirst(xs[1..], x));
      }
    }
    DropsAtMultiset(xs, IndexOf(xs, x), r);
    r
  }

  lemma DropsAtMultiset(xs: seq<Claim>, i: int, r: seq<Claim>)
    requires DropsAt(xs, i, r)
    ensures multiset(r) == multiset(xs) - multiset{xs[i]}
  {
    var s := xs[..i] + xs[i + 1..];
    assert r == s by {
      forall k | 0 <= k < |r| ensures r[k] == s[k] {
        if k >= i {
          assert r[k] == xs[k + 1];
        }
      }
    }
    WithoutMultiset(xs, i);
  }

  lemma WithoutMultiset(xs: seq<Claim>, i: int)
    requires 0 <= i < |xs|
    ensures multiset(xs[..i] + xs[i + 1..]) == multiset(xs) - multiset{xs[i]}
  {
    assert xs == xs[..i] + [xs[i]] + xs[i + 1..];
  }

  /** `r` is `xs` without the element at index `i`, the others in order. */
  predicate DropsAt(xs: seq<Claim>, i: int, r: seq<Claim>) {
    && 0 <= i < |xs|
    && |r| == |xs| - 1
    && (forall k :: 0 <= k < i ==> r[k] == xs[k])
    && (forall k :: i < k < |xs| ==> r[k - 1] == xs[k])
  }

  lemma DropsAtCons(y: Claim, t: seq<Claim>, j: int, rest: seq<Claim>)
    requires DropsAt(t, j, rest)
    ensures DropsAt([y] + t, j + 1, [y] + rest)
  {
  }

  /** The index of the first element of `xs` equal to `x`. */
  function IndexOf(xs: seq<Claim>, x: Claim): (i: nat)
    requires x in xs
    ensures i < |xs| && xs[i] == x && x !in xs[..i]
  {
    if xs[0] == x then 0
    else
      assert xs == [xs[0]] + xs[1..];
      var j := IndexOf(xs[1..], x);
      assert xs[..j + 1] == [xs[0]] + xs[1..][..j];
      j + 1
  }

  /** `for y in ys: xs.remove(y)` (lines 456-464). */
  function RemoveEach(xs: seq<Claim>, ys: seq<Claim>): seq<Claim>
    requires multiset(ys) <= multiset(xs)
    decreases |ys|
  {
    if ys == [] then xs
    else
      assert ys == [ys[0]] + ys[1..];
      assert multiset(ys) == multiset{ys[0]} + multiset(ys[1..]);
      assert ys[0] in multiset(xs);
      RemoveEach(RemoveFirst(xs, ys[0]), ys[1..])
  }

  /** How `RemoveEach` unfolds on a removal list with head `y`. */
  lemma RemoveEachUnfolds(xs: seq<Claim>, y: Claim, ys: seq<Claim>)
    requires multiset([y] + ys) <= multiset(xs)
    ensures y in xs && multiset(ys) <= multiset(RemoveFirst(xs, y))
    ensures RemoveEach(xs, [y] + ys) == RemoveEach(RemoveFirst(xs, y), ys)
  {
    assert ([y] + ys)[0] == y && ([y] + ys)[1..] == ys;
    assert multiset([y] + ys) == multiset{y} + multiset(ys);
    assert y in multiset(xs);
  }

  lemma {:induction false} CoveringOnlyCovers(cs: seq<Claim>, b: int)
    ensures forall c :: c in Covering(cs, b) ==> Covers(c, b)
  {
    if cs != [] {
      CoveringOnlyCovers(cs[1..], b);
    }
  }

  lemma {:induction false} CoveringIsSubMultiset(cs: seq<Claim>, b: int)
    ensures multiset(Covering(cs, b)) <= multiset(cs)
  {
    if cs != [] {
      var c, t := cs[0], cs[1..];
      assert cs == [c] + t;
      CoveringIsSubMultiset(t, b);
      assert multiset(cs) == multiset{c} + multiset(t);
    }
  }

  lemma {:induction false} RemoveEachSkipsHead(x: Claim, t: seq<Claim>, ys: seq<Claim>)
    requires x !in ys
    requires multiset(ys) <= multiset(t)
    ensures multiset(ys) <= multiset([x] + t)
    ensures RemoveEach([x] + t, ys) == [x] + RemoveEach(t, ys)
    decreases |ys|
  {
    if ys != [] {
      var y, rest := ys[0], ys[1..];
      assert ys == [y] + rest;
      RemoveEachUnfolds(t, y, rest);
      RemoveEachUnfolds([x] + t, y, rest);
      assert RemoveFirst([x] + t, y) == [x] + RemoveFirst(t, y) by {
        assert ([x] + t)[0] == x && ([x] + t)[1..] == t;
      }
      RemoveEachSkipsHead(x, RemoveFirst(t, y), rest);
    }
  }

  /** Removing, one by one, every claim that covers `b` leaves exactly the claims
      that do not cover it, in their original order: the removal loop is a
      filter, even when the list holds equal claims twice. */
  lemma {:induction false} RemovingCoveringIsMissing(xs: seq<Claim>, b: int)
    ensures multiset(Covering(xs, b)) <= multiset(xs)
    ensures RemoveEach(xs, Covering(xs, b)) == Missing(xs, b)
  {
    CoveringIsSubMultiset(xs, b);
    if xs != [] {
      var x, t := xs[0], xs[1..];
      assert xs == [x] + t;
      RemovingCoveringIsMissing(t, b);
      var ct := Covering(t, b);
      if Covers(x, b) {
        assert Covering(xs, b) == [x] + ct;
        assert Missing(xs, b) == Missing(t, b);
        RemoveEachUnfolds(xs, x, ct);
        assert RemoveFirst(xs, x) == t;
      } else {
        assert Covering(xs, b) == ct;
        assert Missing(xs, b) == [x] + Missing(t, b);
        CoveringOnlyCovers(t, b);
        RemoveEachSkipsHead(x, t, ct);
      }
    }
  }

  // ---------------------------------------------------------------------------
  // One block step of the scan
  // ---------------------------------------------------------------------------

  // How the list functions unfold on a list with head `c` and tail `t`.

  lemma CoveringCons(c: Claim, t: seq<Claim>, b: int)
    ensures Covering([c] + t, b) == (if Covers(c, b) then [c] else []) + Covering(t, b)
  {
    assert ([c] + t)[0] == c && ([c] + t)[1..] == t;
  }

  lemma MissingCons(c: Claim, t: seq<Claim>, b: int)
    ensures Missing([c] + t, b) == (if Covers(c, b) then [] else [c]) + Missing(t, b)
  {
    assert ([c] + t)[0] == c && ([c] + t)[1..] == t;
  }

  lemma PendingCons(c: Claim, t: seq<Claim>, b: int)
    ensures Pending([c] + t, b) == (if HitBefore(c, b) then [] else [c]) + Pending(t, b)
  {
    assert ([c] + t)[0] == c && ([c] + t)[1..] == t;
  }

  lemma FirstScannedCons(c: Claim, t: seq<Claim>, b: int)
    ensures FirstScannedAt([c] + t, b)
         == (if HitBefore(c, b + 1) && !HitBefore(c, b) then [c] else []) + FirstScannedAt(t, b)
  {
    assert ([c] + t)[0] == c && ([c] + t)[1..] == t;
  }

  lemma TasksOfCons(c: Claim, t: seq<Claim>)
    ensures TasksOf([c] + t) == [TaskOf(c)] + TasksOf(t)
  {
    assert ([c] + t)[0] == c && ([c] + t)[1..] == t;
  }

  lemma TasksAtCons(c: Claim, t: seq<Claim>, b: int)
    ensures TasksAt([c] + t, b) == [Task(c.peerId, b, b + 1)] + TasksAt(t, b)
  {
    assert ([c] + t)[0] == c && ([c] + t)[1..] == t;
  }

  /** Claims left pending after block `b` are those pending before it that do
      not cover it. */
  lemma {:induction false} PendingStep(cs: seq<Claim>, b: int)
    requires 0 <= b
    ensures Missing(Pending(cs, b), b) == Pending(cs, b + 1)
  {
    if cs != [] {
      var c, t := cs[0], cs[1..];
      assert cs == [c] + t;
      PendingStep(t, b);
      var p, p' := Pending(t, b), Pending(t, b + 1);
      if HitBefore(c, b) {
        assert HitBefore(c, b + 1);
        assert Pending(cs, b) == p;
        assert Pending(cs, b + 1) == p';
      } else {
        assert Pending(cs, b) == [c] + p;
        MissingCons(c, p, b);
        assert !Covers(c, b) <==> !HitBefore(c, b + 1);
        assert Pending(cs, b + 1) == (if HitBefore(c, b + 1) then [] else [c]) + p';
      }
    }
  }

  /** The pending claims covering block `b` are exactly those first scanned at
      `b`. */
  lemma {:induction false} FoundIsFirstScanned(cs: seq<Claim>, b: int)
    requires 0 <= b
    ensures Covering(Pending(cs, b), b) == FirstScannedAt(cs, b)
  {
    if cs != [] {
      var c, t := cs[0], cs[1..];
      assert cs == [c] + t;
      FoundIsFirstScanned(t, b);
      var p, f := Pending(t, b), FirstScannedAt(t, b);
      assert FirstScannedAt(cs, b) == (if HitBefore(c, b + 1) && !HitBefore(c, b) then [c] else []) + f;
      if HitBefore(c, b) {
        assert Pending(cs, b) == p;
        assert FirstScannedAt(cs, b) == f;
        assert Covering(Pending(cs, b), b) == Covering(p, b);
      } else {
        assert Pending(cs, b) == [c] + p;
        CoveringCons(c, p, b);
        assert Covers(c, b) <==> HitBefore(c, b + 1);
        var head := if Covers(c, b) then [c] else [];
        assert Covering(Pending(cs, b), b) == head + f;
        assert FirstScannedAt(cs, b) == head + f;
      }
    }
  }

  /** A claim first scanned at `b` has `b` as its first hit, so the task the scan
      writes for it is its own task. */
  lemma {:induction false} FirstScannedTasks(cs: seq<Claim>, b: int)
    ensures TasksAt(FirstScannedAt(cs, b), b) == TasksOf(FirstScannedAt(cs, b))
  {
    if cs != [] {
      var c, t := cs[0], cs[1..];
      assert cs == [c] + t;
      FirstScannedTasks(t, b);
      var f := FirstScannedAt(t, b);
      if HitBefore(c, b + 1) && !HitBefore(c, b) {
        assert FirstHit(c) == b;
        assert FirstScannedAt(cs, b) == [c] + f;
        TasksAtCons(c, f, b);
        TasksOfCons(c, f);
      } else {
        assert FirstScannedAt(cs, b) == f;
      }
    }
  }

  lemma {:induction false} TasksOfAppend(xs: seq<Claim>, ys: seq<Claim>)
    ensures TasksOf(xs + ys) == TasksOf(xs) + TasksOf(ys)
  {
    if xs == [] {
      assert xs + ys == ys;
    } else {
      var c, t := xs[0], xs[1..];
      assert xs == [c] + t;
      assert xs + ys == [c] + (t + ys);
      TasksOfAppend(t, ys);
      TasksOfCons(c, t + ys);
      assert TasksOf(xs) == [TaskOf(c)] + TasksOf(t);
    }
  }

  lemma {:induction false} TasksAtShape(cs: seq<Claim>, b: int)
    ensures |TasksAt(cs, b)| == |cs|
    ensures forall i :: 0 <= i < |cs| ==> TasksAt(cs, b)[i] == Task(cs[i].peerId, b, b + 1)
  {
    if cs != [] {
      assert cs == [cs[0]] + cs[1..];
      TasksAtShape(cs[1..], b);
    }
  }

  /** Nothing is pending or reached before block 0. */
  lemma {:induction false} NothingReachedAtZero(cs: seq<Claim>)
    ensures Pending(cs, 0) == cs
    ensures Reached(cs, 0) == []
  {
    if cs != [] {
      assert cs == [cs[0]] + cs[1..];
      NothingReachedAtZero(cs[1..]);
    }
  }

  /** Once nothing is pending at block `b`, no later block scans a claim. */
  lemma {:induction false} NothingPendingIsFinal(cs: seq<Claim>, b: int, m: int)
    requires b <= m
    requires Pending(cs, b) == []
    ensures Pending(cs, m) == []
    ensures ScanOrder(cs, m) == ScanOrder(cs, b)
    decreases m - b
  {
    if b < m {
      NothingPendingIsFinal(cs, b, m - 1);
      NothingScannedAfter(cs, b, m - 1);
    } else {
    }
    NothingPendingAfter(cs, b, m);
  }

  lemma {:induction false} NothingPendingAfter(cs: seq<Claim>, b: int, m: int)
    requires b <= m
    requires Pending(cs, b) == []
    ensures Pending(cs, m) == []
  {
    if cs != [] {
      assert cs == [cs[0]] + cs[1..];
      NothingPendingAfter(cs[1..], b, m);
    }
  }

  lemma {:induction false} NothingScannedAfter(cs: seq<Claim>, b: int, m: int)
    requires b <= m
    requires Pending(cs, b) == []
    ensures FirstScannedAt(cs, m) == []
  {
    if cs != [] {
      assert cs == [cs[0]] + cs[1..];
      NothingScannedAfter(cs[1..], b, m);
    }
  }

  /** A list with no claim covering `b` is left unchanged by the removals. */
  lemma {:induction false} NoneCoveringKeepsAll(cs: seq<Claim>, b: int)
    requires Covering(cs, b) == []
    ensures Missing(cs, b) == cs
  {
    if cs != [] {
      assert cs == [cs[0]] + cs[1..];
      NoneCoveringKeepsAll(cs[1..], b);
    }
  }

  // ---------------------------------------------------------------------------
  // One pass of the outer loop
  // ---------------------------------------------------------------------------

  /** The state of a pass after scanning the blocks of [0, b). */
  predicate ScanState(claims: seq<Claim>, b: int, group: seq<Task>, pending: seq<Claim>) {
    && pending == Pending(claims, b)
    && group == TasksOf(ScanOrder(claims, b))
    && Sorted(group)
    && SingleBlocksIn(group, 0, b)
  }

  /** Scanning block `b` (lines 451-466) moves the state from `b` to `b + 1`. */
  lemma ScanStep(claims: seq<Claim>, b: int, group: seq<Task>, pending: seq<Claim>)
    requires 0 <= b
    requires ScanState(claims, b, group, pending)
    ensures multiset(Covering(pending, b)) <= multiset(pending)
    ensures ScanState(claims, b + 1,
                      group + TasksAt(Covering(pending, b), b),
                      RemoveEach(pending, Covering(pending, b)))
  {
    var peers := Covering(pending, b);
    RemovingCoveringIsMissing(pending, b);
    PendingStep(claims, b);
    FoundIsFirstScanned(claims, b);
    FirstScannedTasks(claims, b);
    TasksOfAppend(ScanOrder(claims, b), peers);
    assert ScanOrder(claims, b + 1) == ScanOrder(claims, b) + peers;
    var found := TasksAt(peers, b);
    TasksAtShape(peers, b);
    assert group + found == TasksOf(ScanOrder(claims, b + 1));
    AppendingBlockKeepsOrder(group, found, b);
  }

  /** Appending tasks on block `b` to tasks on blocks below `b` keeps them sorted. */
  lemma AppendingBlockKeepsOrder(group: seq<Task>, found: seq<Task>, b: int)
    requires 0 <= b
    requires Sorted(group) && SingleBlocksIn(group, 0, b)
    requires forall i :: 0 <= i < |found| ==> found[i] == Task(found[i].peerId, b, b + 1)
    ensures Sorted(group + found) && SingleBlocksIn(group + found, 0, b + 1)
  {
    var all := group + found;
    forall i, j | 0 <= i < j < |all| ensures all[i].start <= all[j].start {
      if j < |group| {
        assert all[i] == group[i] && all[j] == group[j];
      } else if i >= |group| {
        assert all[i] == found[i - |group|] && all[j] == found[j - |group|];
      } else {
        assert all[i] == group[i] && all[j] == found[j - |group|];
      }
    }
    forall i | 0 <= i < |all| ensures 0 <= all[i].start < b + 1 && all[i].end == all[i].start + 1 {
      if i >= |group| {
        assert all[i] == found[i - |group|];
      } else {
        assert all[i] == group[i];
      }
    }
  }

  /** Once nothing is pending, the state holds up to any later block. */
  lemma ScanFinishesEarly(claims: seq<Claim>, b: int, n: int, group: seq<Task>)
    requires b <= n
    requires ScanState(claims, b, group, [])
    ensures ScanState(claims, n, group, [])
  {
    NothingPendingIsFinal(claims, b, n);
  }

  /** One pass of the outer `while` (lines 448-470): scan blocks 0 .. n-1,
      emitting a task for every pending claim covering the current block and
      removing it, and stop early once nothing is pending.
      The group holds the task of each claim first scanned at block 0, then of
      each first scanned at block 1, and so on (`ScanOrder`); the tasks are one
      block wide and come in nondecreasing block order; the claims no block of
      [0, n) reaches stay pending, in their order. */
  method ScanPass(claims: seq<Claim>, n: nat) returns (group: seq<Task>, pending: seq<Claim>)
    ensures group == TasksOf(ScanOrder(claims, n))
    ensures Sorted(group) && SingleBlocksIn(group, 0, n)
    ensures pending == Pending(claims, n)
    ensures pending == [] <==> AllScannable(claims, n)
  {
    pending := claims;
    group := [];
    var block := 0;
    NothingReachedAtZero(claims);
    while block < n
      invariant 0 <= block <= n
      invariant ScanState(claims, block, group, pending)
      decreases n - block
    {
      var peers := Covering(pending, block);
      ScanStep(claims, block, group, pending);
      if |peers| == 0 {
        assert group + TasksAt(peers, block) == group;
        block := block + 1;
        continue;
      }
      group := group + TasksAt(peers, block);
      pending := RemoveEach(pending, peers);
      block := block + 1;
      if |pending| == 0 {
        ScanFinishesEarly(claims, block, n, group);
        break;
      }
    }
    PendingIsUnscannable(claims, n);
  }

  /** The claims still pending after a full scan are exactly the ones with no
      block in [0, n). */
  lemma {:induction false} PendingIsUnscannable(cs: seq<Claim>, n: int)
    ensures Pending(cs, n) == [] <==> AllScannable(cs, n)
  {
    if cs != [] {
      assert cs == [cs[0]] + cs[1..];
      PendingIsUnscannable(cs[1..], n);
      if AllScannable(cs, n) {
        assert AllScannable(cs[1..], n) by {
          forall i | 0 <= i < |cs[1..]| ensures HitBefore(cs[1..][i], n) {
            assert cs[1..][i] == cs[i + 1];
          }
        }
      }
      if Pending(cs, n) == [] {
        forall i | 0 <= i < |cs| ensures HitBefore(cs[i], n) {
          if i > 0 { assert cs[i] == cs[1..][i - 1]; }
        }
      }
    }
  }

  /** The scan order lists each claim some block of [0, n) reaches exactly
      once: one task per scannable claim, duplicates included. */
  lemma {:induction false} ScanOrderIsReached(cs: seq<Claim>, n: int)
    ensures multiset(ScanOrder(cs, n)) == multiset(Reached(cs, n))
    decreases n
  {
    if n <= 0 {
      ReachedNothingBelowOne(cs, n);
    } else {
      ScanOrderIsReached(cs, n - 1);
      ReachedGrows(cs, n);
    }
  }

  lemma {:induction false} ReachedNothingBelowOne(cs: seq<Claim>, n: int)
    requires n <= 0
    ensures Reached(cs, n) == []
  {
    if cs != [] {
      assert cs == [cs[0]] + cs[1..];
      ReachedNothingBelowOne(cs[1..], n);
    }
  }

  lemma {:induction false} ReachedGrows(cs: seq<Claim>, b: int)
    ensures multiset(Reached(cs, b)) == multiset(Reached(cs, b - 1)) + multiset(FirstScannedAt(cs, b - 1))
  {
    if cs != [] {
      ReachedGrows(cs[1..], b);
    }
  }

  /** A second pass over what a first pass left pending reaches nothing: it
      emits an empty group and leaves the same claims pending. This is why the
      outer loop never ends once some claim has no block in [0, n). */
  lemma {:induction false} SecondPassIsStuck(cs: seq<Claim>, n: int)
    ensures Pending(Pending(cs, n), n) == Pending(cs, n)
    ensures ScanOrder(Pending(cs, n), n) == []
  {
    PendingTwice(cs, n);
    NoneScannedInPending(cs, n, n);
  }

  lemma {:induction false} PendingTwice(cs: seq<Claim>, n: int)
    ensures Pending(Pending(cs, n), n) == Pending(cs, n)
  {
    if cs != [] {
      var c, t := cs[0], cs[1..];
      assert cs == [c] + t;
      PendingTwice(t, n);
      var p := Pending(t, n);
      if HitBefore(c, n) {
        assert Pending(cs, n) == p;
      } else {
        assert Pending(cs, n) == [c] + p;
        PendingCons(c, p, n);
        assert Pending([c] + p, n) == [c] + Pending(p, n);
      }
    }
  }

  lemma {:induction false} NoneScannedInPending(cs: seq<Claim>, n: int, m: int)
    requires m <= n
    ensures ScanOrder(Pending(cs, n), m) == []
    decreases m
  {
    if m > 0 {
      NoneScannedInPending(cs, n, m - 1);
      NoneFirstScannedInPending(cs, n, m - 1);
    }
  }

  lemma {:induction false} NoneFirstScannedInPending(cs: seq<Claim>, n: int, b: int)
    requires b < n
    ensures FirstScannedAt(Pending(cs, n), b) == []
  {
    if cs != [] {
      var c, t := cs[0], cs[1..];
      assert cs == [c] + t;
      NoneFirstScannedInPending(t, n, b);
      var p := Pending(t, n);
      if HitBefore(c, n) {
        assert Pending(cs, n) == p;
      } else {
        assert Pending(cs, n) == [c] + p;
        FirstScannedCons(c, p, b);
        assert !HitBefore(c, b + 1);
        assert FirstScannedAt([c] + p, b) == FirstScannedAt(p, b);
      }
    }
  }

  // ---------------------------------------------------------------------------
  // The whole assignment
  // ---------------------------------------------------------------------------

  /** The groups after the first pass: the first group is that pass's output,
      every later one is empty, and the unscannable claims stay pending. */
  predicate AfterFirstPass(claims: seq<Claim>, n: int, groups: seq<seq<Task>>, pending: seq<Claim>) {
    && |groups| >= 1
    && pending == Pending(claims, n)
    && groups[0] == TasksOf(ScanOrder(claims, n))
    && Sorted(groups[0]) && SingleBlocksIn(groups[0], 0, n)
    && forall i :: 1 <= i < |groups| ==> groups[i] == []
  }

  lemma AnotherPassAddsNothing(claims: seq<Claim>, n: int, groups: seq<seq<Task>>, pending: seq<Claim>)
    requires AfterFirstPass(claims, n, groups, pending)
    ensures TasksOf(ScanOrder(pending, n)) == []
    ensures Pending(pending, n) == pending
    ensures AfterFirstPass(claims, n, groups + [[]], pending)
  {
    SecondPassIsStuck(claims, n);
    assert TasksOf([]) == [];
    var groups' := groups + [[]];
    assert forall i :: 1 <= i < |groups| ==> groups'[i] == groups[i];
  }

  /** `get_peers_validation_spans` (lines 439-471), run for at most `passes`
      iterations of its outer loop; the source has no such bound and loops for
      ever when some claim has no block in [0, n).
      - With no claims there are no groups.
      - When every claim has a block in [0, n), the first pass returns exactly
        one group and leaves the pending list (which aliases the peer list)
        empty.
      - Otherwise every further pass appends an empty group and the loop never
        empties the pending list: the budget is used up. */
  method PeersValidationSpans(claims: seq<Claim>, n: nat, passes: nat)
    returns (groups: seq<seq<Task>>, pending: seq<Claim>)
    ensures claims == [] ==> groups == [] && pending == []
    ensures claims != [] && passes > 0 ==>
      && AfterFirstPass(claims, n, groups, pending)
      && (pending == [] <==> AllScannable(claims, n))
      && (AllScannable(claims, n) ==> |groups| == 1)
      && (!AllScannable(claims, n) ==> |groups| == passes)
  {
    groups := [];
    pending := claims;
    PendingIsUnscannable(claims, n);
    while |pending| > 0 && |groups| < passes
      invariant |groups| <= passes
      invariant groups == [] ==> pending == claims
      invariant claims == [] ==> groups == []
      invariant groups != [] ==> AfterFirstPass(claims, n, groups, pending)
      invariant groups != [] && AllScannable(claims, n) ==> |groups| == 1
      decreases passes - |groups|
    {
      var group, rest := ScanPass(pending, n);
      if groups != [] {
        AnotherPassAddsNothing(claims, n, groups, pending);
      }
      groups := groups + [group];
      pending := rest;
    }
  }

  // ---------------------------------------------------------------------------
  // Examples
  // ---------------------------------------------------------------------------

  /** Overlapping claims share a block inside one group: claims [0, 2] and
      [0, 3] both yield a task on block 0. */
  lemma OverlappingClaimsShareABlock()
    ensures TasksOf(ScanOrder([Claim("a", 0, 2), Claim("b", 0, 3)], 4))
         == [Task("a", 0, 1), Task("b", 0, 1)]
  {
  }

  /** A claim starting past the last block, or with its ends reversed, is never
      scanned, so the assignment does not terminate on it. */
  lemma UnscannableClaims(n: nat)
    ensures !AllScannable([Claim("late", n, n + 5)], n)
    ensures !AllScannable([Claim("reversed", 3, 1)], n)
  {
    assert !HitBefore([Claim("late", n, n + 5)][0], n);
    assert !HitBefore([Claim("reversed", 3, 1)][0], n);
  }
}
